=== FILE: README.md ===
# Jellyfish Lighting integration: a Dafny model of the controller client

This project models the core of a Home Assistant integration for JellyFish Lighting
controllers, and proves properties of that model. The core is `JellyfishClient`, a
WebSocket client for the controller. It:

- dials `ws://<host>:<port>/ws`;
- keeps one read loop per connection;
- schedules a connection attempt five seconds after a failed `connect()` or the end of a
  read loop. As written, a failed reconnection attempt schedules nothing further (see
  Findings);
- caches the pattern catalog and the zone map that the controller pushes, and
  announces each replacement with a dispatcher signal;
- serialises the outbound commands: the pattern-list and zone queries, running a
  pattern file or inline pattern data, and the pattern-file-data request.

Around the client, the model covers:

- the select platform: one pattern-select entity per zone, its options taken from
  the catalog, and the integration's service handlers;
- the sensor platform: one current-pattern sensor per zone;
- the light entity's state derivation from the REST API's responses.

The modules are:

| module | file | contents |
|---|---|---|
| `Wrappers` | wrappers.dfy | `Option` |
| `Json` | json.dfy | decoded JSON values; objects keep member order; Python truthiness and iteration |
| `Decimal` | decimal.dfy | integer formatting and parsing, for the port in the URL |
| `Protocol` | protocol.dfy | the endpoint URL, inbound message handling, outbound message shapes |
| `JellyfishClient` | client.dfy | the client as an immutable state with one pure transition per operation |
| `Lifecycle` | lifecycle.dfy | all client transitions as events; invariants and properties of whole runs |
| `ZoneEntities` | zone_entities.dfy | the shared "create one entity per new zone" loop |
| `Select` | select.dfy | the pattern select entity, its setup callback and the services |
| `Sensor` | sensor.dfy | the current-pattern sensor and its setup callback |
| `Platforms` | platforms.dfy | how select and sensor identities relate |
| `Light` | light.dfy | the light entity |

The client's outside world enters as parameters:

- whether a handshake succeeds;
- whether a socket write succeeds;
- which frames arrive, and how each read loop ends;
- when the reconnect timer fires.

`Lifecycle.Step` runs the reconnect attempt as the code is written when its `corrected`
flag is false, and the intended attempt when it is true. Every run property below is
stated for the as-written machine, and for both machines where it holds in both. The
one exception is `Lifecycle.RetriesKeepPending`, stated for the corrected machine only:
it is the corrected half of the finding.

Sockets and the session are present/absent flags. The readiness event is a flag plus
the sends blocked on it. Dispatcher signals, dialled URLs and written or abandoned
messages are append-only logs.

Where the code differs from what one might expect, the model follows the code:

- a read loop that has started running and is then cancelled by `disconnect()` still
  runs its `finally` block, so it schedules a reconnect;
- `disconnect()` does not cancel a pending reconnect, so the client comes back after a
  disconnect (there is no closed state);
- `connect()` is not guarded, so calling it twice leaves an orphaned read loop running;
- a send made before the first successful connect waits on the readiness event; it is
  not rejected;
- a text frame whose JSON is not an object makes `.get` raise, which ends the read loop
  and schedules a reconnect;
- the stored config-entry data has no `"entities"` list, so, as long as every client's
  zone map is a dictionary, `set_zone_pattern` always ends in its "not found" warning. A
  zone map that is not a dictionary (after a `zones` push of `[]` or `null`, say) makes
  it raise instead. Even if it found an entity, the select entity has no
  `async_set_pattern`.

## Model

| member | source | states |
|---|---|---|
| `Lifecycle.NewClientInv` | custom_components/jellyfish_lighting/websocket_api.py:17-28 | the client `JellyfishClient.NewClient` builds, for any host and port (nothing open, empty catalog list, empty zone map), satisfies the client invariant |
| `JellyfishClient.ScheduleReconnect` | custom_components/jellyfish_lighting/websocket_api.py:57-60 | afterwards a reconnect is outstanding; when one already was, nothing changes; otherwise one sleeps for the given delay; no other field changes |
| `JellyfishClient.ConnectWs` | custom_components/jellyfish_lighting/websocket_api.py:43-55 | a session exists afterwards and the endpoint URL has been dialled. On success: the socket is open, readiness is set, every blocked send is released in order, and a new read loop runs. On failure: a pending reconnect is kept, otherwise a new one sleeps the five-second delay, and socket, readiness and loops are unchanged. Caches, signals and the wire are untouched either way |
| `JellyfishClient.Connect` | custom_components/jellyfish_lighting/websocket_api.py:38-41 | creating the session up front makes no difference: `connect` behaves exactly as `_connect_ws` |
| `JellyfishClient.ReconnectAttemptAsWritten` | custom_components/jellyfish_lighting/websocket_api.py:55-64 | as written, the attempt is exactly `_connect_ws` followed by forgetting the reconnect task, so everything `ConnectWs` promises carries over (a success releases the blocked sends; caches, signals and logs are untouched). Afterwards nothing is outstanding, whether it succeeded or failed |
| `JellyfishClient.ReconnectAttempt` | custom_components/jellyfish_lighting/websocket_api.py:62-64 | corrected: a success is exactly `_connect_ws` with nothing left pending; a failure is exactly `_connect_ws` with a new retry sleeping the five-second delay. So everything `ConnectWs` promises carries over |
| `JellyfishClient.Disconnect` | custom_components/jellyfish_lighting/websocket_api.py:66-75 | socket, session and readiness are cleared; the current loop goes from reading to cancelling, and the other loops keep their status; a pending reconnect stays pending; nothing else changes |
| `JellyfishClient.LoopExit` | custom_components/jellyfish_lighting/websocket_api.py:84-91 | however a loop ends, it is marked finished, readiness is cleared, and a pending reconnect is kept or else a new one sleeps the five-second delay; the socket reference and the session stay; nothing else changes |
| `JellyfishClient.ReceiveFrame` | custom_components/jellyfish_lighting/websocket_api.py:77-91 | address, loop count, dialled URLs and written and abandoned messages never change, and signals only grow; non-text frames change nothing; a text frame that raises ends the loop as a failure; any other frame replaces the catalog and the zone map by what it pushed (kept when not pushed) and appends one signal per pushed key; nothing else changes |
| `JellyfishClient.ApplyPush` | custom_components/jellyfish_lighting/websocket_api.py:102-107 | applying a controller push's effects sets each pushed key to its pushed value (kept when absent) and appends its signal, patterns first; nothing else changes |
| `JellyfishClient.ApplyMessage` | custom_components/jellyfish_lighting/websocket_api.py:100-107 | applying a handled message's writes and notifications in order gives exactly the pushed values and the pushed keys' signals, patterns first |
| `JellyfishClient.Send` | custom_components/jellyfish_lighting/websocket_api.py:109-117 | the message is written iff the client is ready with a socket and the write succeeds; it waits iff the client is not ready; it is abandoned iff the client is ready without a working socket; each log grows by at most this message |
| `JellyfishClient.Resume` | custom_components/jellyfish_lighting/websocket_api.py:110-117 | the oldest released send leaves the queue and is written iff a socket is present and the write succeeds, and is abandoned otherwise |
| `JellyfishClient.RequestPatternList` | custom_components/jellyfish_lighting/websocket_api.py:120-121 | one message is written, waits or is abandoned, and it reads back as the `toCtlrGet` query for `patternFileList` |
| `JellyfishClient.RequestZones` | custom_components/jellyfish_lighting/websocket_api.py:123-124 | one message is written, waits or is abandoned, and it reads back as the `toCtlrGet` query for `zones` |
| `JellyfishClient.RunPattern` | custom_components/jellyfish_lighting/websocket_api.py:126-137 | the one message sent reads back as a `runPattern` set carrying the file, empty data and id, the state and the zone names |
| `JellyfishClient.RunPatternAdvanced` | custom_components/jellyfish_lighting/websocket_api.py:139-150 | the one message sent reads back as a `runPattern` set carrying empty file and id, the inline data, the state and the zone names |
| `JellyfishClient.GetPatternFileData` | custom_components/jellyfish_lighting/websocket_api.py:152-156 | reports true whatever happens, and the one message sent reads back as the `patternFileData` query for the folder and file name |
| `Protocol.UrlRoundTrip` | custom_components/jellyfish_lighting/websocket_api.py:46 | the URL `Protocol.Url` builds, the one `_connect_ws` dials, parses back to exactly the host and port, whatever characters the host holds |
| `Protocol.DefaultUrl` | custom_components/jellyfish_lighting/websocket_api.py:46 | with the default port 9000, `Protocol.Url` gives the endpoint `ws://<host>:9000/ws` |
| `Protocol.HandleMessage` | custom_components/jellyfish_lighting/websocket_api.py:93-107 | raises iff the text decoded to JSON that is not an object. The effects write the catalog with value p iff the message is a `fromCtlr` push whose `patternFileList` is p, and the same for the zone map and `zones`. No effect occurs twice. Every write is directly followed by its notification and every notification directly follows its write. The catalog is written before the zone map |
| `Protocol.ParseRender` | custom_components/jellyfish_lighting/websocket_api.py:115 | every outbound request's serialised form is recognised as that same request |
| `Protocol.RenderParse` | custom_components/jellyfish_lighting/websocket_api.py:115 | every message recognised as a request is exactly that request's serialised form |
| `Protocol.RequestPatternListMessage` | custom_components/jellyfish_lighting/websocket_api.py:121 | the message is the query for the single path `patternFileList` |
| `Protocol.RequestZonesMessage` | custom_components/jellyfish_lighting/websocket_api.py:124 | the message is the query for the single path `zones` |
| `Protocol.PatternFileDataMessage` | custom_components/jellyfish_lighting/websocket_api.py:153 | the message is the query for the path `patternFileData`, folder, file name |
| `Protocol.RunPatternMessage` | custom_components/jellyfish_lighting/websocket_api.py:127-136 | the message is the pattern run with the given file, empty data and id, state and zone names |
| `Protocol.RunPatternAdvancedMessage` | custom_components/jellyfish_lighting/websocket_api.py:140-149 | the message is the pattern run with empty file and id, the given data, state and zone names |
| `Protocol.RunPatternVariantsOverlap` | custom_components/jellyfish_lighting/websocket_api.py:126-150 | running the pattern file "" and running the inline data "" send the same message |
| `Protocol.RunPatternInjective` | custom_components/jellyfish_lighting/websocket_api.py:127-136 | distinct `run_pattern` arguments give distinct messages |
| `Protocol.SunsetMessage` | custom_components/jellyfish_lighting/websocket_api.py:126-137 | `run_pattern("sunset", ["Pool"], 1)` serialises to the documented message, members in order |
| `Lifecycle.Step` | custom_components/jellyfish_lighting/websocket_api.py:38-117 | one event never changes the address, never shortens the loop list or the dialled, signal, written or abandoned logs. A failed reconnect timer leaves a retry pending exactly when the corrected attempt runs (as written, none is pending) |
| `Lifecycle.RunOnlyAppends` | custom_components/jellyfish_lighting/websocket_api.py:38-117 | over any run of either machine the address stays, read loops are never forgotten, and the dialled URLs, signals, written and abandoned messages only grow |
| `Lifecycle.AtMostOneLiveLoop` | custom_components/jellyfish_lighting/websocket_api.py:52 | under the invariant at most one read loop is live, and one is exactly when the current one is |
| `Lifecycle.ConnectKeepsInv` | custom_components/jellyfish_lighting/websocket_api.py:43-55 | a connect made with no live loop and nothing pending keeps the invariant |
| `Lifecycle.ReconnectKeepsInv` | custom_components/jellyfish_lighting/websocket_api.py:62-64 | the corrected reconnect attempt keeps the invariant |
| `Lifecycle.ReconnectAsWrittenKeepsInv` | custom_components/jellyfish_lighting/websocket_api.py:55-64 | the reconnect attempt as written keeps the invariant |
| `Lifecycle.DisconnectKeepsInv` | custom_components/jellyfish_lighting/websocket_api.py:66-75 | a disconnect keeps the invariant |
| `Lifecycle.LoopExitKeepsInv` | custom_components/jellyfish_lighting/websocket_api.py:84-91 | a loop ending keeps the invariant |
| `Lifecycle.ReceiveFrameKeepsInv` | custom_components/jellyfish_lighting/websocket_api.py:77-107 | receiving any frame keeps the invariant |
| `Lifecycle.StepPreservesInv` | custom_components/jellyfish_lighting/websocket_api.py:38-117 | for the as-written and the corrected machine alike, every event keeps the invariant, except a connect made while a loop is live or a reconnect is pending |
| `Lifecycle.RunPreservesInv` | custom_components/jellyfish_lighting/websocket_api.py:38-117 | for both machines, any run without connect calls keeps the invariant |
| `Lifecycle.OneConnectOneLoop` | custom_components/jellyfish_lighting/websocket_api.py:43-91 | for both machines, after one connect from a new client and any later events other than connects, the invariant holds and at most one read loop is live at a time |
| `Lifecycle.SecondConnectOrphansLoop` | custom_components/jellyfish_lighting/websocket_api.py:38-52 | two successful connects leave two read loops reading |
| `Lifecycle.CancelledLoopSchedulesReconnect` | custom_components/jellyfish_lighting/websocket_api.py:66-91 | for a loop that has started reading, disconnect then the cancelled loop's exit leaves a reconnect sleeping five seconds, with socket, session and readiness cleared |
| `Lifecycle.ReconnectsAfterDisconnect` | custom_components/jellyfish_lighting/websocket_api.py:43-91 | after disconnect, the loop's exit and a successful timer, the client is connected and reading again |
| `Lifecycle.DisconnectIdempotent` | custom_components/jellyfish_lighting/websocket_api.py:66-75 | a second disconnect changes nothing |
| `Lifecycle.ExitReasonIrrelevant` | custom_components/jellyfish_lighting/websocket_api.py:84-91 | a loop ending by stream end, exception or cancellation has the same effect |
| `Lifecycle.StrandedStaysStranded` | custom_components/jellyfish_lighting/websocket_api.py:57-91 | a client with nothing pending, no live loop and no readiness stays so under every event other than connect |
| `Lifecycle.StrandedAfterFailedRetry` | custom_components/jellyfish_lighting/websocket_api.py:55-64 | on the as-written machine, once a reconnect timer's attempt fails with no loop live, no later event other than connect makes the client ready or schedules a retry |
| `Lifecycle.StrandedExample` | custom_components/jellyfish_lighting/websocket_api.py:38-64 | from a new client, a failed connect then a failed retry strands the as-written machine, while the corrected one still has a retry pending |
| `Lifecycle.RetriesKeepPending` | custom_components/jellyfish_lighting/websocket_api.py:57-64 | corrected: after any number of failed attempts a retry is still sleeping and the URL was dialled once per attempt; the next successful attempt makes the client ready |
| `Lifecycle.BlockedUntilConnect` | custom_components/jellyfish_lighting/websocket_api.py:109-115 | for both machines: from a client that is not ready, any run without a successful handshake leaves it not ready and keeps the waiting sends waiting, in order, as a prefix. The next successful connect releases all of them, oldest first, and leaves none waiting |
| `Lifecycle.SendWaitsForConnect` | custom_components/jellyfish_lighting/websocket_api.py:109-115 | the concrete run: a send made on a new client is not written while the first handshake fails; a successful retry releases it, and it is written when it resumes |
| `Lifecycle.CacheHoldsLastPush` | custom_components/jellyfish_lighting/websocket_api.py:100-107 | after any frames that do not raise, the zone map and the catalog are exactly the last pushed values (or the earlier ones when none was pushed), and the loops are unchanged |
| `ZoneEntities.NewZones` | custom_components/jellyfish_lighting/select.py:78-83 | the zones created are exactly the keys not yet recorded, each once, in key order; afterwards every key is recorded |
| `Select.UniqueIdInjective` | custom_components/jellyfish_lighting/select.py:131-133 | select entities with equal unique ids (`Select.UniqueId`, the `jellyfish_pattern_select_` prefix before the zone) are for the same zone |
| `Select.NamesOf` | custom_components/jellyfish_lighting/select.py:124 | names exist iff every entry is a dictionary; each is the entry's "name", or "Unknown" |
| `Select.PatternOptions` | custom_components/jellyfish_lighting/select.py:121-124 | options exist iff the catalog is a list of dictionaries, or an empty dictionary or string; they are the entries' names in order |
| `Select.NewPatternSelect` | custom_components/jellyfish_lighting/select.py:102-107 | an entity is made iff the options can be computed; it is named after its zone (`Select.SelectName`, `Jellyfish <zone> Pattern`), holds the options, and has no current option |
| `Select.RefreshOptions` | custom_components/jellyfish_lighting/select.py:126-129 | only the options change, to the current catalog's names; it raises exactly when the options cannot be computed |
| `Select.SelectOption` | custom_components/jellyfish_lighting/select.py:143-146 | runs the option as a pattern file on the entity's zone with state 1; the option is recorded when the client is ready, and the entity is unchanged while the send waits |
| `Select.AddZoneSelectEntities` | custom_components/jellyfish_lighting/select.py:76-85 | raises iff the zone map is not a dictionary, or there is a new zone and the options cannot be computed. Otherwise every key is recorded, entities are made for exactly the new keys in order, each as its constructor makes it, and entities are added iff there is one |
| `Select.RunPatternService` | custom_components/jellyfish_lighting/select.py:33-38 | the one message sent is the pattern run with `file` (default ""), `zone_names` (default []) and `state` (default 1) from the call data |
| `Select.RunPatternAdvancedService` | custom_components/jellyfish_lighting/select.py:40-45 | the one message sent is the pattern run with `data` (default ""), `zone_names` (default []) and `state` (default 1) from the call data |
| `Select.PatternDataService` | custom_components/jellyfish_lighting/select.py:47-50 | returns true; the one message sent is the pattern-file-data query, with null for a missing folder or file name |
| `Select.RunPatternServiceDefaults` | custom_components/jellyfish_lighting/select.py:33-38 | with no call data on a connected client, the wire gains exactly the run of pattern file "" on no zones with state 1 |
| `Select.SetZonePattern` | custom_components/jellyfish_lighting/select.py:52-65 | the service raises iff some entry's zone map is not a dictionary, or it has the zone and an entity for it; otherwise it warns |
| `Select.StoredEntriesAlwaysWarn` | custom_components/jellyfish_lighting/select.py:25-65 | as long as every stored client's zone map is a dictionary, entries stored as setup stores them make the service always end in the "not found" warning |
| `Sensor.NewSensor` | custom_components/jellyfish_lighting/sensor.py:30-35 | a sensor is named and identified after its zone and has no state |
| `Sensor.UniqueIdInjective` | custom_components/jellyfish_lighting/sensor.py:34 | sensors with equal unique ids are for the same zone |
| `Sensor.HandleZoneUpdate` | custom_components/jellyfish_lighting/sensor.py:55-61 | raises iff the zone map is not a dictionary or the zone's value is true but not a dictionary. A non-empty attribute dictionary gives its `currentPattern` (null when absent); an absent or empty zone clears the state; only the state changes |
| `Sensor.AddZoneSensors` | custom_components/jellyfish_lighting/sensor.py:14-23 | raises iff the zone map is not a dictionary. Otherwise every key is recorded, sensors are made for exactly the new keys in order, and sensors are added iff there is one |
| `Platforms.UniqueIdsDisjoint` | custom_components/jellyfish_lighting/select.py:133 | no pattern select shares a unique id with a pattern sensor (sensor.py line 34), whatever the zones |
| `Platforms.NamesCanCoincide` | custom_components/jellyfish_lighting/select.py:105 | display names can coincide: the select of zone "A Current" and the sensor of zone "A" have the same name |
| `Light.MergeStatus` | custom_components/jellyfish_lighting/light.py:74-83 | a false status changes nothing. A true non-dictionary raises. A dictionary sets power from "on" (kept when absent); it raises iff "color" is not a dictionary, and otherwise sets each channel (255 when missing) and the effect (kept when absent) |
| `Light.MergeEffects` | custom_components/jellyfish_lighting/light.py:84-86 | only the effect list can change; it raises iff the response is true but not a dictionary; a dictionary sets the list from "effects" (default []) |
| `Light.UpdateLight` | custom_components/jellyfish_lighting/light.py:73-86 | raises iff the status or the effects response is true and ill-shaped. A false status leaves power, colour and effect alone; the list changes only on a true effects dictionary |
| `Light.TurnOn` | custom_components/jellyfish_lighting/light.py:56-66 | power ends as the status's "on" when there is a status dictionary, and on otherwise; without a status the requested colour and effect stay; whether it raises depends on the responses alone |
| `Light.TurnOff` | custom_components/jellyfish_lighting/light.py:68-71 | power ends as the status's "on" when there is a status dictionary, and off otherwise; without a status colour and effect are kept |
| `Light.MissingColorMeansWhite` | custom_components/jellyfish_lighting/light.py:77-82 | a status without "color" resets the colour to white, discarding the colour just requested |
| `Light.UpdateIdempotent` | custom_components/jellyfish_lighting/light.py:73-86 | updating twice with the same responses equals updating once, whether or not the update raises |
| `Light.ColorFromStatusOnly` | custom_components/jellyfish_lighting/light.py:77-82 | after a status merge that does not raise, the colour depends on the response alone |
| `Light.InitialWithoutResponses` | custom_components/jellyfish_lighting/light.py:24-30 | the light `Light.InitialLight` builds is off and white, and stays as constructed while both requests fail |

## Left out

- Timing: the 30-second heartbeat and the real five-second sleep. Time is an event, `ReconnectTimer`, and the delay is recorded as a number.
- Interleavings inside one operation: each transition is atomic, including the awaited handshake of a reconnect attempt.
- Task start-up: a read loop counts as reading from the moment `_connect_ws` creates its task. A task cancelled before its first step, as when `disconnect()` directly follows `connect()`, never enters its `try` block, so in the code its `finally` block does not run and no reconnect is scheduled. The model schedules one in that case too.
- aiohttp and the socket API: sockets and the session are flags. Handshake and write outcomes are parameters.
- `json.loads` and `json.dumps`: a text frame carries its decoded value, absent when decoding fails. JSON numbers other than integers are not represented.
- JSON objects with repeated keys: the model's lookup takes the first member, while `json.loads` keeps the last value.
- Logging, and the `patterns`/`zones` properties, which return the cache.
- Home Assistant's dispatcher, entity registry and `async_write_ha_state`: a signal is a log entry, and a new entity list is a result with a flag for whether `async_add_entities` is called.
- Entity subscription bookkeeping (`async_added_to_hass`, `async_will_remove_from_hass`).
- The select's `options` and `current_option` properties and the sensor's `unique_id` and `state` properties: they return stored fields.
- The local `entities` dictionaries of the setup callbacks: nothing reads them.
- Setup and unload plumbing: `async_setup`, platform forwarding, service registration, and `async_unload_entry` (which calls `disconnect`, modelled above).
- The light's REST API client (api.py): its responses are parameters, and it is not part of this model.
- The light's `set_color`/`set_effect`/`set_power` requests: the entity ignores their results. Also left out are `async_setup_platform`, `name` and `supported_features`.
- config_flow.py, __init__.py and const.py: configuration glue. The constants the core uses (port 9000, signals, delays, key names) are written into the model. The domain strings differ between files ("jellyfish" in const.py, "jellyfish_lighting" in __init__.py); this model does not depend on them.
- Select.SelectOption: when the client is not ready, the send waits, and the option is recorded only after it resumes. The contract leaves the entity unchanged and does not follow it to the later resumption.

## Findings

| source | as written | input that shows it | evidently intended | confidence | as-written member | corrected member |
|---|---|---|---|---|---|---|
| custom_components/jellyfish_lighting/websocket_api.py:57-64 | a reconnect attempt runs `_connect_ws` inside the reconnect task. On failure, `_schedule_reconnect` sees that task not yet done and returns without scheduling anything, so retrying stops after one failed attempt. Setup (select.py line 88) then waits on readiness forever | the first `connect()` handshake fails (a reconnect is scheduled), then the delayed retry's handshake fails too: no task is pending and no later event makes the client ready | every failed attempt schedules the next one, five seconds later, until one succeeds | high; not executed | `Lifecycle.StrandedAfterFailedRetry` (with `JellyfishClient.ReconnectAttemptAsWritten` and `Lifecycle.StrandedExample`) | `Lifecycle.RetriesKeepPending` (with `JellyfishClient.ReconnectAttempt`, which `Lifecycle.Step` runs when `corrected` is true) |

=== FILE: client.dfy ===
/**
 The controller client (`JellyfishClient`) as an immutable state record with one pure
 transition per operation. Sockets and the aiohttp session are present/absent flags;
 asyncio tasks are the read-loop list and the reconnect-task status; the readiness
 `Event` is a flag with the sends blocked on it; dispatcher signals, dialled URLs and
 written or abandoned messages are appended logs.
 */
module JellyfishClient {
  import opened Wrappers
  import opened Json
  import opened Protocol

  /** A read-loop task: reading frames, cancelled but not yet finished, or finished. A
      task counts as reading from the moment it is created. */
  datatype Loop = Reading | Cancelling | Exited

  /** The reconnect task: none or finished, sleeping before its attempt, or attempting. */
  datatype Reconnect = Idle | Sleeping(delay: int) | Attempting

  /** Why a read loop ended: the stream ended, an exception escaped, or it was cancelled. */
  datatype ExitReason = StreamEnded | Failed | Cancelled

  datatype State = State(
    host: string,
    port: int,
    hasSession: bool,          // _session is not None
    hasWs: bool,               // _ws is not None
    ready: bool,               // _connected_event is set
    loops: seq<Loop>,          // every read loop started; _read_task is the last
    reconnect: Reconnect,      // _reconnect_task
    patterns: Value,           // _patterns
    zones: Value,              // _zones
    signals: seq<Signal>,      // dispatcher signals sent, in order
    attempts: seq<string>,     // URLs dialled, in order
    blocked: seq<Value>,       // sends waiting for the readiness event
    woken: seq<Value>,         // sends released by the event, not yet resumed
    wire: seq<Value>,          // messages written to a socket
    dropped: seq<Value>)       // messages abandoned (no socket, or the write failed)

  /** A new client: nothing open, an empty catalog and zone map. */
  function NewClient(host: string, port: int := DEFAULT_PORT): State {
    State(host, port, false, false, false, [], Idle, Arr([]), Obj([]), [], [], [], [], [], [])
  }

  /** The read loop `_read_task` refers to is still running or cancelling. */
  predicate Live(c: State) {
    |c.loops| > 0 && c.loops[|c.loops| - 1] != Exited
  }

  /** `_schedule_reconnect`: start a delayed reconnect unless one is outstanding. */
  function ScheduleReconnect(c: State, delay: int := RECONNECT_DELAY): (r: State)
    ensures r.reconnect != Idle
    ensures c.reconnect != Idle ==> r == c
    ensures c.reconnect == Idle ==> r.reconnect == Sleeping(delay)
    ensures r.(reconnect := c.reconnect) == c
  {
    if c.reconnect != Idle then c else c.(reconnect := Sleeping(delay))
  }

  /** `_connect_ws` with the handshake outcome `ok`: on success the socket is open, the
      readiness event is set (releasing every blocked send, oldest first) and a new read
      loop runs; on failure a reconnect is scheduled and nothing is raised. Either way a
      session exists afterwards and the endpoint URL has been dialled. */
  function ConnectWs(c: State, ok: bool): (r: State)
    ensures r.hasSession
    ensures r.attempts == c.attempts + [Url(c.host, c.port)]
    ensures r.patterns == c.patterns && r.zones == c.zones && r.signals == c.signals
    ensures r.wire == c.wire && r.dropped == c.dropped && r.host == c.host && r.port == c.port
    ensures ok ==> r.hasWs && r.ready && r.loops == c.loops + [Reading] && r.reconnect == c.reconnect
    ensures ok ==> r.blocked == [] && r.woken == c.woken + c.blocked
    ensures !ok ==> r.hasWs == c.hasWs && r.ready == c.ready && r.loops == c.loops
    ensures !ok ==> r.blocked == c.blocked && r.woken == c.woken
    ensures !ok ==> r.reconnect != Idle && (c.reconnect != Idle ==> r.reconnect == c.reconnect)
    ensures !ok && c.reconnect == Idle ==> r.reconnect == Sleeping(RECONNECT_DELAY)
  {
    var c1 := c.(hasSession := true, attempts := c.attempts + [Url(c.host, c.port)]);
    if ok then
      c1.(hasWs := true, ready := true, blocked := [], woken := c1.woken + c1.blocked,
          loops := c1.loops + [Reading])
    else
      ScheduleReconnect(c1)
  }

  /** `connect`: creates the session if needed, then `_connect_ws`. */
  function Connect(c: State, ok: bool): (r: State)
    ensures r == ConnectWs(c, ok)
  {
    ConnectWs(c.(hasSession := true), ok)
  }

  /** The reconnect task's attempt as written: while `_connect_ws` runs, the task is not
      done, so the `_schedule_reconnect` of a failed attempt sees it and returns. The
      task then finishes: nothing is outstanding, whatever the outcome. */
  function ReconnectAttemptAsWritten(c: State, ok: bool): (r: State)
    requires c.reconnect.Sleeping?
    ensures r == ConnectWs(c, ok).(reconnect := Idle)
    ensures r.reconnect == Idle
    ensures r.hasSession && r.attempts == c.attempts + [Url(c.host, c.port)]
    ensures ok ==> r.hasWs && r.ready && r.loops == c.loops + [Reading]
    ensures !ok ==> r.hasWs == c.hasWs && r.ready == c.ready && r.loops == c.loops
  {
    ConnectWs(c.(reconnect := Attempting), ok).(reconnect := Idle)
  }

  /** The reconnect attempt as intended: the task counts as finished before it dials, so
      a failed attempt schedules the next one and retries go on until one succeeds. */
  function ReconnectAttempt(c: State, ok: bool): (r: State)
    requires c.reconnect.Sleeping?
    ensures ok ==> r == ConnectWs(c, ok).(reconnect := Idle)
    ensures !ok ==> r == ConnectWs(c, ok).(reconnect := Sleeping(RECONNECT_DELAY))
    ensures ok ==> r.reconnect == Idle && r.hasWs && r.ready && r.loops == c.loops + [Reading]
    ensures !ok ==> r.reconnect == Sleeping(RECONNECT_DELAY)
    ensures !ok ==> r.hasWs == c.hasWs && r.ready == c.ready && r.loops == c.loops
    ensures r.hasSession && r.attempts == c.attempts + [Url(c.host, c.port)]
  {
    ConnectWs(c.(reconnect := Idle), ok)
  }

  /** `disconnect`: cancels the current read loop, closes and forgets the socket and the
      session, and clears readiness. A pending reconnect is left alone. */
  function Disconnect(c: State): (r: State)
    ensures !r.hasWs && !r.hasSession && !r.ready
    ensures r.reconnect == c.reconnect
    ensures |r.loops| == |c.loops|
    ensures forall i :: 0 <= i < |c.loops| ==> r.loops[i] == (if i == |c.loops| - 1 && c.loops[i] == Reading then Cancelling else c.loops[i])
    ensures r.(hasWs := c.hasWs, hasSession := c.hasSession, ready := c.ready, loops := c.loops) == c
  {
    var loops := if Live(c) && c.loops[|c.loops| - 1] == Reading then c.loops[|c.loops| - 1 := Cancelling] else c.loops;
    c.(loops := loops, hasWs := false, hasSession := false, ready := false)
  }

  /** The `finally` block of `_read_loop`, run on every exit: readiness is cleared and a
      reconnect is scheduled. A cancelled loop returns from its handler, and the `finally`
      block runs all the same. The socket reference is not cleared. */
  function LoopExit(c: State, i: nat, reason: ExitReason): (r: State)
    requires i < |c.loops| && c.loops[i] != Exited
    ensures r.loops == c.loops[i := Exited]
    ensures !r.ready && r.hasWs == c.hasWs && r.hasSession == c.hasSession
    ensures r.reconnect != Idle && (c.reconnect != Idle ==> r.reconnect == c.reconnect)
    ensures c.reconnect == Idle ==> r.reconnect == Sleeping(RECONNECT_DELAY)
    ensures r.(loops := c.loops, ready := c.ready, reconnect := c.reconnect) == c
  {
    ScheduleReconnect(c.(loops := c.loops[i := Exited], ready := false))
  }

  /** Applies the effects of one message to the cache and the signal log, in order. */
  function Apply(c: State, effects: seq<Effect>): State
    decreases |effects|
  {
    if |effects| == 0 then c else Apply(ApplyOne(c, effects[0]), effects[1..])
  }

  function ApplyOne(c: State, e: Effect): State {
    match e
    case SetPatterns(p) => c.(patterns := p)
    case SetZones(z) => c.(zones := z)
    case Notify(s) => c.(signals := c.signals + [s])
  }

  /** Read loop `i` receives one frame. Binary frames and frames of other types are
      skipped. A text frame is handled: a controller push replaces the catalog and/or the
      zone map wholesale, with one notification per replaced key (patterns first); any
      other message leaves everything unchanged; JSON that is not an object raises, which
      ends the loop through its `finally` block. */
  function ReceiveFrame(c: State, i: nat, f: Frame): (r: State)
    requires i < |c.loops| && c.loops[i] == Reading
    ensures r.host == c.host && r.port == c.port && |r.loops| == |c.loops|
    ensures r.attempts == c.attempts && r.wire == c.wire && r.dropped == c.dropped
    ensures c.signals <= r.signals
    ensures f.msgType != TEXT ==> r == c
    ensures f.msgType == TEXT && HandleMessage(f.decoded).Raise? ==> r == LoopExit(c, i, Failed)
    ensures Harmless(f) ==> r.patterns == Pushed(f, PATTERN_LIST_KEY).GetOr(c.patterns)
    ensures Harmless(f) ==> r.zones == Pushed(f, ZONES_KEY).GetOr(c.zones)
    ensures Harmless(f) ==> r.signals == c.signals + PushSignals(f)
    ensures Harmless(f) ==> r.(patterns := c.patterns, zones := c.zones, signals := c.signals) == c
  {
    if f.msgType == BINARY then c
    else if f.msgType == TEXT then
      match HandleMessage(f.decoded)
      case Raise => LoopExit(c, i, Failed)
      case Perform(effects) =>
        ApplyMessage(c, f);
        Apply(c, effects)
    else c
  }

  /** The notifications a frame's push announces, patterns first. */
  function PushSignals(f: Frame): seq<Signal> {
    (if Pushed(f, PATTERN_LIST_KEY).Some? then [PatternsUpdated] else [])
    + (if Pushed(f, ZONES_KEY).Some? then [ZonesUpdated] else [])
  }

  lemma {:induction false} ApplyConcat(c: State, a: seq<Effect>, b: seq<Effect>)
    ensures Apply(c, a + b) == Apply(Apply(c, a), b)
    decreases |a|
  {
    if |a| == 0 {
      assert a + b == b;
    } else {
      assert (a + b)[0] == a[0];
      assert (a + b)[1..] == a[1..] + b;
      ApplyConcat(ApplyOne(c, a[0]), a[1..], b);
    }
  }

  lemma ApplyWrite(c: State, e: Effect, s: Signal)
    requires !e.Notify?
    ensures Apply(c, [e, Notify(s)]) == (match e
      case SetPatterns(p) => c.(patterns := p, signals := c.signals + [s])
      case SetZones(z) => c.(zones := z, signals := c.signals + [s]))
  {
    var c1 := ApplyOne(c, e);
    assert [e, Notify(s)][1..] == [Notify(s)];
    assert [Notify(s)][1..] == [];
    assert Apply(c, [e, Notify(s)]) == Apply(c1, [Notify(s)]);
    assert Apply(c1, [Notify(s)]) == Apply(ApplyOne(c1, Notify(s)), []);
  }

  /** Applying a controller push: each pushed key takes the pushed value and its
      signal is appended, patterns first; nothing else changes. */
  lemma ApplyPush(c: State, fields: Fields)
    ensures var r := Apply(c, PatternEffects(fields) + ZoneEffects(fields));
      && r.patterns == Get(fields, PATTERN_LIST_KEY).GetOr(c.patterns)
      && r.zones == Get(fields, ZONES_KEY).GetOr(c.zones)
      && r.signals == c.signals + (if Get(fields, PATTERN_LIST_KEY).Some? then [PatternsUpdated] else [])
                                + (if Get(fields, ZONES_KEY).Some? then [ZonesUpdated] else [])
      && r.(patterns := c.patterns, zones := c.zones, signals := c.signals) == c
  {
    var pe := PatternEffects(fields);
    var ze := ZoneEffects(fields);
    ApplyConcat(c, pe, ze);
    var c1 := Apply(c, pe);
    if Get(fields, PATTERN_LIST_KEY).Some? {
      ApplyWrite(c, SetPatterns(Get(fields, PATTERN_LIST_KEY).value), PatternsUpdated);
    }
    if Get(fields, ZONES_KEY).Some? {
      ApplyWrite(c1, SetZones(Get(fields, ZONES_KEY).value), ZonesUpdated);
    }
  }

  /** Handling a text frame that does not raise changes only the cache and the signals:
      each pushed key takes the pushed value, and its signal is appended. */
  lemma ApplyMessage(c: State, f: Frame)
    requires f.msgType == TEXT && HandleMessage(f.decoded).Perform?
    ensures var r := Apply(c, HandleMessage(f.decoded).effects);
      && r.patterns == Pushed(f, PATTERN_LIST_KEY).GetOr(c.patterns)
      && r.zones == Pushed(f, ZONES_KEY).GetOr(c.zones)
      && r.signals == c.signals + PushSignals(f)
      && r.(patterns := c.patterns, zones := c.zones, signals := c.signals) == c
  {
    if f.decoded.Some? && FromController(f.decoded.value) {
      var fields := f.decoded.value.fields;
      assert HandleMessage(f.decoded).effects == PatternEffects(fields) + ZoneEffects(fields);
      ApplyPush(c, fields);
    } else {
      assert HandleMessage(f.decoded).effects == [];
    }
  }

  /** `_send` with the write outcome `delivered`. Before readiness the call waits on the
      event; once ready it writes when a socket is present, and otherwise abandons the
      message. A failed write is logged and abandoned too; nothing is retried. */
  function Send(c: State, m: Value, delivered: bool): (r: State)
    ensures r.wire == c.wire + [m] <==> c.ready && c.hasWs && delivered
    ensures r.dropped == c.dropped + [m] <==> c.ready && !(c.hasWs && delivered)
    ensures r.blocked == c.blocked + [m] <==> !c.ready
    ensures r.wire == c.wire || r.wire == c.wire + [m]
    ensures r.dropped == c.dropped || r.dropped == c.dropped + [m]
    ensures r.blocked == c.blocked || r.blocked == c.blocked + [m]
    ensures r.(wire := c.wire, dropped := c.dropped, blocked := c.blocked) == c
  {
    if !c.ready then c.(blocked := c.blocked + [m])
    else if c.hasWs && delivered then c.(wire := c.wire + [m])
    else c.(dropped := c.dropped + [m])
  }

  /** The oldest released send resumes: it writes when a socket is present by then, and is
      abandoned otherwise (a disconnect raced it). */
  function Resume(c: State, delivered: bool): (r: State)
    requires |c.woken| > 0
    ensures r.woken == c.woken[1..]
    ensures r.wire == c.wire + [c.woken[0]] <==> c.hasWs && delivered
    ensures r.wire == c.wire || r.wire == c.wire + [c.woken[0]]
    ensures r.dropped == c.dropped + [c.woken[0]] <==> !(c.hasWs && delivered)
    ensures r.dropped == c.dropped || r.dropped == c.dropped + [c.woken[0]]
    ensures r.(woken := c.woken, wire := c.wire, dropped := c.dropped) == c
  {
    var m := c.woken[0];
    var c1 := c.(woken := c.woken[1..]);
    if c.hasWs && delivered then c1.(wire := c.wire + [m]) else c1.(dropped := c.dropped + [m])
  }

  /** `after` is `before` with one message appended that reads back as request `q`. */
  predicate AppendedRequest(before: seq<Value>, after: seq<Value>, q: Request) {
    |after| == |before| + 1 && after[..|before|] == before && ParseRequest(after[|before|]) == Some(q)
  }

  /** `r` is `c` after one `_send` whose message reads back as request `q`: written when
      the client is ready with a socket and the write succeeds, left waiting while it is
      not ready, abandoned otherwise; nothing else changes. */
  predicate SentRequest(c: State, r: State, q: Request, delivered: bool) {
    && r.(wire := c.wire, dropped := c.dropped, blocked := c.blocked) == c
    && (c.ready && c.hasWs && delivered ==>
          AppendedRequest(c.wire, r.wire, q) && r.dropped == c.dropped && r.blocked == c.blocked)
    && (!c.ready ==>
          AppendedRequest(c.blocked, r.blocked, q) && r.wire == c.wire && r.dropped == c.dropped)
    && (c.ready && !(c.hasWs && delivered) ==>
          AppendedRequest(c.dropped, r.dropped, q) && r.wire == c.wire && r.blocked == c.blocked)
  }

  /** `request_pattern_list`: asks for the pattern catalog. */
  function RequestPatternList(c: State, delivered: bool): (r: State)
    ensures SentRequest(c, r, Query([Str(PATTERN_LIST_KEY)]), delivered)
  {
    Send(c, RequestPatternListMessage(), delivered)
  }

  /** `request_zones`: asks for the zone map. */
  function RequestZones(c: State, delivered: bool): (r: State)
    ensures SentRequest(c, r, Query([Str(ZONES_KEY)]), delivered)
  {
    Send(c, RequestZonesMessage(), delivered)
  }

  /** `run_pattern`: runs a named pattern file on the zones, with empty `data` and `id`. */
  function RunPattern(c: State, file: Value, zoneNames: Value, state: Value, delivered: bool): (r: State)
    ensures SentRequest(c, r, RunPatternRequest(file, Str(""), Str(""), state, zoneNames), delivered)
  {
    Send(c, RunPatternMessage(file, zoneNames, state), delivered)
  }

  /** `run_pattern_advanced`: runs inline pattern data on the zones, with empty `file`
      and `id`. */
  function RunPatternAdvanced(c: State, data: Value, zoneNames: Value, state: Value, delivered: bool): (r: State)
    ensures SentRequest(c, r, RunPatternRequest(Str(""), data, Str(""), state, zoneNames), delivered)
  {
    Send(c, RunPatternAdvancedMessage(data, zoneNames, state), delivered)
  }

  /** `get_pattern_file_data`: sends the request and reports true, without waiting for
      the controller's reply. */
  function GetPatternFileData(c: State, folder: Value, filename: Value, delivered: bool): (r: (State, bool))
    ensures r.1
    ensures SentRequest(c, r.0, Query([Str("patternFileData"), folder, filename]), delivered)
  {
    (Send(c, PatternFileDataMessage(folder, filename), delivered), true)
  }
}

=== FILE: decimal.dfy ===
/**
 Decimal formatting of integers, as Python's `str(n)` (and an f-string field) writes
 them: an optional minus sign followed by digits with no leading zeros.
 */
module Decimal {
  import opened Wrappers

  predicate IsDigit(c: char) {
    '0' <= c <= '9'
  }

  predicate AllDigits(s: string) {
    forall i :: 0 <= i < |s| ==> IsDigit(s[i])
  }

  function DigitChar(d: nat): (c: char)
    requires d < 10
    ensures IsDigit(c) && (c as int) - ('0' as int) == d
  {
    (('0' as int) + d) as char
  }

  /** The digits of `n`, most significant first. */
  function NatToString(n: nat): (s: string)
    ensures |s| > 0 && AllDigits(s)
    ensures |s| > 1 ==> s[0] != '0'
  {
    if n < 10 then [DigitChar(n)] else NatToString(n / 10) + [DigitChar(n % 10)]
  }

  /** Python's `str(i)` for an integer. */
  function IntToString(i: int): (s: string)
    ensures |s| > 0
    ensures ':' !in s
  {
    if i < 0 then "-" + NatToString(-i) else NatToString(i)
  }

  /** The value of a string of digits. */
  function DigitsValue(s: string): nat
    requires AllDigits(s)
  {
    if |s| == 0 then 0
    else DigitsValue(s[..|s| - 1]) * 10 + ((s[|s| - 1] as int) - ('0' as int))
  }

  /** Python's `int(s)` restricted to what `str` writes; absent for anything else. */
  function ParseInt(s: string): Option<int> {
    if |s| > 1 && s[0] == '-' && AllDigits(s[1..]) then Some(0 - DigitsValue(s[1..]) as int)
    else if |s| > 0 && AllDigits(s) then Some(DigitsValue(s) as int)
    else None
  }

  lemma {:induction false} DigitsRoundTrip(n: nat)
    ensures DigitsValue(NatToString(n)) == n
  {
    if n >= 10 {
      var s := NatToString(n);
      DigitsRoundTrip(n / 10);
      assert s[..|s| - 1] == NatToString(n / 10);
    }
  }

  /** Reading back what `str` writes gives the integer it was written from. */
  lemma IntRoundTrip(i: int)
    ensures ParseInt(IntToString(i)) == Some(i)
  {
    if i < 0 {
      var s := IntToString(i);
      assert s[1..] == NatToString(-i);
      DigitsRoundTrip(-i);
    } else {
      DigitsRoundTrip(i);
    }
  }
}

=== FILE: json.dfy ===
/**
 Decoded JSON values, as `json.loads` produces them and `json.dumps` consumes them,
 together with the few Python dictionary and truth-value operations the integration
 applies to them.
 */
module Json {
  import opened Wrappers

  /** A JSON value. An object keeps its members in document order: Python dictionaries
      iterate in insertion order and `json.dumps` writes members in that order. */
  datatype Value =
    | Null
    | Bool(b: bool)
    | Int(n: int)
    | Str(s: string)
    | Arr(items: seq<Value>)
    | Obj(fields: seq<(string, Value)>)

  type Fields = seq<(string, Value)>

  /** `key in d` for a dictionary `d`. */
  predicate Has(fields: Fields, key: string) {
    exists i :: 0 <= i < |fields| && fields[i].0 == key
  }

  /** `d.get(key)`: the value of the first member named `key`, absent when there is none. */
  function Get(fields: Fields, key: string): (r: Option<Value>)
    ensures r.Some? <==> Has(fields, key)
    ensures r.Some? ==> (key, r.value) in fields
  {
    if |fields| == 0 then None
    else if fields[0].0 == key then Some(fields[0].1)
    else
      var r := Get(fields[1..], key);
      assert Has(fields, key) ==> Has(fields[1..], key) by {
        if Has(fields, key) {
          var i :| 0 <= i < |fields| && fields[i].0 == key;
          assert i > 0 && fields[1..][i - 1].0 == key;
        }
      }
      assert Has(fields[1..], key) ==> Has(fields, key) by {
        if Has(fields[1..], key) {
          var i :| 0 <= i < |fields[1..]| && fields[1..][i].0 == key;
          assert fields[i + 1].0 == key;
        }
      }
      r
  }

  /** The member names in document order, as `d.keys()` iterates them. */
  function Keys(fields: Fields): (r: seq<string>)
    ensures |r| == |fields|
    ensures forall i :: 0 <= i < |r| ==> r[i] == fields[i].0
  {
    if |fields| == 0 then [] else [fields[0].0] + Keys(fields[1..])
  }

  /** Python's truth value of a decoded JSON value: `None`, `False`, `0`, `""`, `[]`
      and `{}` are false, everything else is true. */
  predicate Truthy(v: Value) {
    match v
    case Null => false
    case Bool(b) => b
    case Int(n) => n != 0
    case Str(s) => |s| > 0
    case Arr(items) => |items| > 0
    case Obj(fields) => |fields| > 0
  }

  /** The elements `for x in v` visits: the items of a list, the keys of a dictionary,
      the one-character strings of a string. A number, a boolean or `None` is not
      iterable, and the loop raises `TypeError` (absent result). */
  function Iterate(v: Value): (r: Option<seq<Value>>)
    ensures r.Some? <==> (v.Arr? || v.Obj? || v.Str?)
    ensures r.Some? ==> (|r.value| == 0 <==> !Truthy(v))
    ensures v.Arr? ==> r == Some(v.items)
  {
    match v
    case Arr(items) => Some(items)
    case Obj(fields) => Some(seq(|fields|, i requires 0 <= i < |fields| => Str(fields[i].0)))
    case Str(s) => Some(seq(|s|, i requires 0 <= i < |s| => Str([s[i]])))
    case _ => None
  }
}

=== FILE: lifecycle.dfy ===
/**
 The client as an event-driven state machine: everything that can happen to it
 (calls from the integration, the reconnect timer, frames and stream ends on a read
 loop, sends resuming) as one event type, and properties of whole runs.
 */
module Lifecycle {
  import opened Wrappers
  import opened Json
  import opened Protocol
  import opened JellyfishClient

  datatype Event =
    | ConnectCall(ok: bool)                // connect(), handshake outcome ok
    | DisconnectCall                       // disconnect()
    | ReconnectTimer(ok: bool)             // the pending reconnect's delay elapses
    | FrameArrives(loop: nat, frame: Frame)
    | LoopEnds(loop: nat, reason: ExitReason)
    | SendCall(message: Value, delivered: bool)
    | SendResumes(delivered: bool)         // the oldest released send runs on

  /** Whether an event can happen in a state: a timer needs a sleeping reconnect task,
      frames need a reading loop, a loop can end only while it runs, and only a
      released send can resume. */
  predicate Enabled(c: State, e: Event) {
    match e
    case ReconnectTimer(_) => c.reconnect.Sleeping?
    case FrameArrives(i, _) => i < |c.loops| && c.loops[i] == Reading
    case LoopEnds(i, _) => i < |c.loops| && c.loops[i] != Exited
    case SendResumes(_) => |c.woken| > 0
    case _ => true
  }

  /** One event; an event that cannot happen in the state leaves it unchanged. The
      reconnect timer runs the attempt as written (`corrected` false), where a failed
      attempt schedules nothing, or the intended one (`corrected` true), where it
      schedules the next retry. Whichever runs, the client's address never changes,
      the logs only grow and no read loop is forgotten. */
  function Step(c: State, e: Event, corrected: bool): (r: State)
    ensures r.host == c.host && r.port == c.port
    ensures c.attempts <= r.attempts && c.signals <= r.signals
    ensures c.wire <= r.wire && c.dropped <= r.dropped
    ensures |c.loops| <= |r.loops|
    ensures e.ReconnectTimer? && Enabled(c, e) && !e.ok ==> (r.reconnect.Sleeping? <==> corrected)
  {
    if !Enabled(c, e) then c
    else match e
      case ConnectCall(ok) => Connect(c, ok)
      case DisconnectCall => Disconnect(c)
      case ReconnectTimer(ok) => if corrected then ReconnectAttempt(c, ok) else ReconnectAttemptAsWritten(c, ok)
      case FrameArrives(i, f) => ReceiveFrame(c, i, f)
      case LoopEnds(i, reason) => LoopExit(c, i, reason)
      case SendCall(m, d) => Send(c, m, d)
      case SendResumes(d) => Resume(c, d)
  }

  function Run(c: State, es: seq<Event>, corrected: bool): State
    decreases |es|
  {
    if |es| == 0 then c else Run(Step(c, es[0], corrected), es[1..], corrected)
  }

  lemma {:induction false} RunConcat(c: State, a: seq<Event>, b: seq<Event>, corrected: bool)
    ensures Run(c, a + b, corrected) == Run(Run(c, a, corrected), b, corrected)
    decreases |a|
  {
    if |a| == 0 {
      assert a + b == b;
    } else {
      assert (a + b)[0] == a[0];
      assert (a + b)[1..] == a[1..] + b;
      RunConcat(Step(c, a[0], corrected), a[1..], b, corrected);
    }
  }

  /** Over any run the address stays, the dialled URLs, signals, written and abandoned
      messages only grow, and read loops are never forgotten. */
  lemma {:induction false} RunOnlyAppends(c: State, es: seq<Event>, corrected: bool)
    ensures var d := Run(c, es, corrected);
      && d.host == c.host && d.port == c.port
      && c.attempts <= d.attempts && c.signals <= d.signals
      && c.wire <= d.wire && c.dropped <= d.dropped
      && |c.loops| <= |d.loops|
    decreases |es|
  {
    if |es| > 0 {
      RunOnlyAppends(Step(c, es[0], corrected), es[1..], corrected);
    }
  }

  predicate NoConnectCalls(es: seq<Event>) {
    forall k :: 0 <= k < |es| ==> !es[k].ConnectCall?
  }

  /** The number of read loops still running or cancelling. */
  function LiveCount(loops: seq<Loop>): nat {
    if |loops| == 0 then 0
    else LiveCount(loops[..|loops| - 1]) + (if loops[|loops| - 1] != Exited then 1 else 0)
  }

  /** The invariant of every state reachable with a single connect() call: readiness
      means an open socket on a running read loop and no blocked send; a socket implies
      a session; every loop but the last has finished; and a running loop excludes a
      pending reconnect. */
  predicate Inv(c: State) {
    && (c.ready ==> c.hasWs && c.blocked == [])
    && (c.hasWs ==> c.hasSession)
    && (forall i :: 0 <= i < |c.loops| - 1 ==> c.loops[i] == Exited)
    && (Live(c) ==> c.reconnect == Idle)
    && (c.ready <==> |c.loops| > 0 && c.loops[|c.loops| - 1] == Reading)
    && c.reconnect != Attempting
  }

  lemma {:induction false} AllExitedNoneLive(loops: seq<Loop>)
    requires forall i :: 0 <= i < |loops| ==> loops[i] == Exited
    ensures LiveCount(loops) == 0
  {
    if |loops| > 0 {
      AllExitedNoneLive(loops[..|loops| - 1]);
    }
  }

  /** Under the invariant at most one read loop is live at a time, and it is the one
      `_read_task` refers to. */
  lemma AtMostOneLiveLoop(c: State)
    requires Inv(c)
    ensures LiveCount(c.loops) <= 1
    ensures LiveCount(c.loops) == 1 <==> Live(c)
  {
    if |c.loops| > 0 {
      AllExitedNoneLive(c.loops[..|c.loops| - 1]);
    }
  }

  lemma NewClientInv(host: string, port: int)
    ensures Inv(NewClient(host, port))
  {
  }

  lemma ConnectKeepsInv(c: State, ok: bool)
    requires Inv(c) && !Live(c) && c.reconnect == Idle
    ensures Inv(Connect(c, ok))
  {
  }

  lemma ReconnectKeepsInv(c: State, ok: bool)
    requires Inv(c) && c.reconnect.Sleeping?
    ensures Inv(ReconnectAttempt(c, ok))
  {
  }

  lemma ReconnectAsWrittenKeepsInv(c: State, ok: bool)
    requires Inv(c) && c.reconnect.Sleeping?
    ensures Inv(ReconnectAttemptAsWritten(c, ok))
  {
  }

  lemma DisconnectKeepsInv(c: State)
    requires Inv(c)
    ensures Inv(Disconnect(c))
  {
  }

  lemma LoopExitKeepsInv(c: State, i: nat, reason: ExitReason)
    requires Inv(c) && i < |c.loops| && c.loops[i] != Exited
    ensures Inv(LoopExit(c, i, reason))
  {
    assert i == |c.loops| - 1;
  }

  lemma ReceiveFrameKeepsInv(c: State, i: nat, f: Frame)
    requires Inv(c) && i < |c.loops| && c.loops[i] == Reading
    ensures Inv(ReceiveFrame(c, i, f))
  {
    if f.msgType == TEXT && HandleMessage(f.decoded).Raise? {
      LoopExitKeepsInv(c, i, Failed);
    }
  }

  /** Every event preserves the invariant, with the reconnect attempt as written and as
      intended alike, except a connect() call made while a read loop runs or a reconnect
      is outstanding. */
  lemma StepPreservesInv(c: State, e: Event, corrected: bool)
    requires Inv(c)
    requires e.ConnectCall? ==> !Live(c) && c.reconnect == Idle
    ensures Inv(Step(c, e, corrected))
  {
    if Enabled(c, e) {
      match e
      case ConnectCall(ok) => ConnectKeepsInv(c, ok);
      case DisconnectCall => DisconnectKeepsInv(c);
      case ReconnectTimer(ok) =>
        if corrected { ReconnectKeepsInv(c, ok); } else { ReconnectAsWrittenKeepsInv(c, ok); }
      case FrameArrives(i, f) => ReceiveFrameKeepsInv(c, i, f);
      case LoopEnds(i, reason) => LoopExitKeepsInv(c, i, reason);
      case SendCall(m, d) =>
      case SendResumes(d) =>
    }
  }

  lemma NoConnectCallsTail(es: seq<Event>)
    requires |es| > 0 && NoConnectCalls(es)
    ensures !es[0].ConnectCall? && NoConnectCalls(es[1..])
  {
    forall k | 0 <= k < |es[1..]| ensures !es[1..][k].ConnectCall? {
      assert es[1..][k] == es[k + 1];
    }
  }

  lemma {:induction false} RunPreservesInv(c: State, es: seq<Event>, corrected: bool)
    requires Inv(c) && NoConnectCalls(es)
    ensures Inv(Run(c, es, corrected))
    decreases |es|
  {
    if |es| > 0 {
      NoConnectCallsTail(es);
      StepPreservesInv(c, es[0], corrected);
      RunPreservesInv(Step(c, es[0], corrected), es[1..], corrected);
    }
  }

  /** When connect() is called once, as the integration does at setup, no later mix of
      disconnects, reconnect attempts (as written or as intended), frames, stream ends
      and sends ever has two read loops alive. */
  lemma OneConnectOneLoop(host: string, port: int, ok: bool, es: seq<Event>, corrected: bool)
    requires NoConnectCalls(es)
    ensures Inv(Run(NewClient(host, port), [ConnectCall(ok)] + es, corrected))
    ensures LiveCount(Run(NewClient(host, port), [ConnectCall(ok)] + es, corrected).loops) <= 1
  {
    var c0 := NewClient(host, port);
    NewClientInv(host, port);
    StepPreservesInv(c0, ConnectCall(ok), corrected);
    assert ([ConnectCall(ok)] + es)[0] == ConnectCall(ok);
    assert ([ConnectCall(ok)] + es)[1..] == es;
    RunPreservesInv(Step(c0, ConnectCall(ok), corrected), es, corrected);
    AtMostOneLiveLoop(Run(c0, [ConnectCall(ok)] + es, corrected));
  }

  /** No handle guards connect(): calling it twice leaves the first read loop running,
      unreferenced, beside the second. */
  lemma SecondConnectOrphansLoop(host: string, port: int, corrected: bool)
    ensures Run(NewClient(host, port), [ConnectCall(true), ConnectCall(true)], corrected).loops == [Reading, Reading]
  {
    var c1 := Step(NewClient(host, port), ConnectCall(true), corrected);
    assert Run(NewClient(host, port), [ConnectCall(true), ConnectCall(true)], corrected) == Run(c1, [ConnectCall(true)], corrected);
  }

  /** A loop that has started reading and is then cancelled by disconnect() still runs
      its `finally` block: readiness stays clear and a reconnect is scheduled. */
  lemma CancelledLoopSchedulesReconnect(c: State, corrected: bool)
    requires Inv(c) && |c.loops| > 0 && c.loops[|c.loops| - 1] == Reading
    ensures var i := |c.loops| - 1;
      var d := Run(c, [DisconnectCall, LoopEnds(i, Cancelled)], corrected);
      d.reconnect == Sleeping(RECONNECT_DELAY) && !d.ready && !d.hasWs && !d.hasSession
  {
    var i := |c.loops| - 1;
    var c1 := Step(c, DisconnectCall, corrected);
    assert c1.loops[i] == Cancelling;
    assert Run(c, [DisconnectCall, LoopEnds(i, Cancelled)], corrected) == Run(c1, [LoopEnds(i, Cancelled)], corrected);
    assert Run(c1, [LoopEnds(i, Cancelled)], corrected) == Step(c1, LoopEnds(i, Cancelled), corrected);
  }

  /** There is no closed state: after disconnect(), the cancelled loop's reconnect dials
      again, recreating the session, and the client is connected once more. */
  lemma ReconnectsAfterDisconnect(c: State, corrected: bool)
    requires Inv(c) && |c.loops| > 0 && c.loops[|c.loops| - 1] == Reading
    ensures var d := Run(c, [DisconnectCall, LoopEnds(|c.loops| - 1, Cancelled), ReconnectTimer(true)], corrected);
      d.ready && d.hasWs && d.hasSession && Live(d)
  {
    var i := |c.loops| - 1;
    CancelledLoopSchedulesReconnect(c, corrected);
    RunConcat(c, [DisconnectCall, LoopEnds(i, Cancelled)], [ReconnectTimer(true)], corrected);
    assert [DisconnectCall, LoopEnds(i, Cancelled)] + [ReconnectTimer(true)]
        == [DisconnectCall, LoopEnds(i, Cancelled), ReconnectTimer(true)];
  }

  /** disconnect() can be repeated safely: a second call changes nothing. */
  lemma DisconnectIdempotent(c: State)
    ensures Disconnect(Disconnect(c)) == Disconnect(c)
  {
  }

  /** However a read loop ends (stream end, exception, cancellation), the same thing
      happens. */
  lemma ExitReasonIrrelevant(c: State, i: nat, a: ExitReason, b: ExitReason)
    requires i < |c.loops| && c.loops[i] != Exited
    ensures LoopExit(c, i, a) == LoopExit(c, i, b)
  {
  }

  /** No reconnect pending, none running, not ready. */
  predicate Stranded(c: State) {
    !c.ready && c.reconnect == Idle && !Live(c) && (forall i :: 0 <= i < |c.loops| ==> c.loops[i] == Exited)
  }

  lemma {:induction false} StrandedStaysStranded(c: State, es: seq<Event>, corrected: bool)
    requires Stranded(c) && NoConnectCalls(es)
    ensures Stranded(Run(c, es, corrected))
    decreases |es|
  {
    if |es| > 0 {
      NoConnectCallsTail(es);
      assert Stranded(Step(c, es[0], corrected));
      StrandedStaysStranded(Step(c, es[0], corrected), es[1..], corrected);
    }
  }

  /** As written, a reconnect attempt that fails while no read loop runs schedules
      nothing: from then on no event short of another connect() call makes the client
      ready again or schedules a retry. */
  lemma StrandedAfterFailedRetry(c: State, es: seq<Event>)
    requires Inv(c) && c.reconnect.Sleeping?
    requires forall i :: 0 <= i < |c.loops| ==> c.loops[i] == Exited
    requires NoConnectCalls(es)
    ensures var d := Run(c, [ReconnectTimer(false)] + es, false);
      !d.ready && d.reconnect == Idle
  {
    assert ([ReconnectTimer(false)] + es)[0] == ReconnectTimer(false);
    assert ([ReconnectTimer(false)] + es)[1..] == es;
    StrandedStaysStranded(Step(c, ReconnectTimer(false), false), es, false);
  }

  /** The concrete run as written: the first handshake fails and so does the one retry;
      the corrected attempt leaves a retry pending instead. */
  lemma StrandedExample(host: string, port: int)
    ensures Stranded(Run(NewClient(host, port), [ConnectCall(false), ReconnectTimer(false)], false))
    ensures Run(NewClient(host, port), [ConnectCall(false), ReconnectTimer(false)], true).reconnect.Sleeping?
  {
    var c0 := NewClient(host, port);
    assert Run(c0, [ConnectCall(false), ReconnectTimer(false)], false)
        == Run(Step(c0, ConnectCall(false), false), [ReconnectTimer(false)], false);
    assert Run(c0, [ConnectCall(false), ReconnectTimer(false)], true)
        == Run(Step(c0, ConnectCall(false), true), [ReconnectTimer(false)], true);
  }

  function Failures(n: nat): (r: seq<Event>)
    ensures |r| == n && forall k :: 0 <= k < n ==> r[k] == ReconnectTimer(false)
  {
    if n == 0 then [] else Failures(n - 1) + [ReconnectTimer(false)]
  }

  /** With the intended reconnect, any number of failed attempts leaves one retry
      pending and dials the endpoint once per attempt; the next successful attempt
      connects. */
  lemma {:induction false} RetriesKeepPending(c: State, n: nat)
    requires c.reconnect.Sleeping?
    ensures var d := Run(c, Failures(n), true);
      d.reconnect.Sleeping? && d.attempts == c.attempts + seq(n, k => Url(c.host, c.port))
      && d.host == c.host && d.port == c.port
    ensures Run(c, Failures(n) + [ReconnectTimer(true)], true).ready
  {
    if n > 0 {
      RetriesKeepPending(c, n - 1);
      RunConcat(c, Failures(n - 1), [ReconnectTimer(false)], true);
      var d := Run(c, Failures(n - 1), true);
      assert Run(d, [ReconnectTimer(false)], true) == Step(d, ReconnectTimer(false), true);
      assert seq(n, k => Url(c.host, c.port)) == seq(n - 1, k => Url(c.host, c.port)) + [Url(c.host, c.port)];
    }
    RunConcat(c, Failures(n), [ReconnectTimer(true)], true);
    assert Run(Run(c, Failures(n), true), [ReconnectTimer(true)], true)
        == Step(Run(c, Failures(n), true), ReconnectTimer(true), true);
  }

  /** A handshake that succeeds: a connect() or a reconnect timer whose attempt works. */
  predicate Succeeds(e: Event) {
    (e.ConnectCall? || e.ReconnectTimer?) && e.ok
  }

  predicate NoSuccess(es: seq<Event>) {
    forall k :: 0 <= k < |es| ==> !Succeeds(es[k])
  }

  /** Sends made while the client is not ready wait on the readiness event: however many
      handshakes fail, disconnects, frames, stream ends and further sends happen, the
      client stays not ready and the waiting sends stay waiting, in order. The next
      successful connect() releases all of them, oldest first. */
  lemma {:induction false} BlockedUntilConnect(c: State, es: seq<Event>, corrected: bool)
    requires !c.ready && NoSuccess(es)
    ensures var d := Run(c, es, corrected);
      && !d.ready && c.blocked <= d.blocked
      && Run(c, es + [ConnectCall(true)], corrected).woken == d.woken + d.blocked
      && Run(c, es + [ConnectCall(true)], corrected).blocked == []
    decreases |es|
  {
    if |es| > 0 {
      assert !Succeeds(es[0]);
      var c1 := Step(c, es[0], corrected);
      assert !c1.ready && c.blocked <= c1.blocked;
      assert NoSuccess(es[1..]) by {
        forall k | 0 <= k < |es[1..]| ensures !Succeeds(es[1..][k]) {
          assert es[1..][k] == es[k + 1];
        }
      }
      BlockedUntilConnect(c1, es[1..], corrected);
      assert (es + [ConnectCall(true)])[1..] == es[1..] + [ConnectCall(true)];
    } else {
      assert es + [ConnectCall(true)] == [ConnectCall(true)];
    }
  }

  /** The concrete run: a send made before any connect is not written while the first
      handshake fails, is released by a successful retry, and is written when it resumes. */
  lemma SendWaitsForConnect(host: string, port: int, m: Value, corrected: bool)
    ensures var c := Run(NewClient(host, port), [SendCall(m, true), ConnectCall(false)], corrected);
      c.wire == [] && c.blocked == [m]
      && Run(c, [ReconnectTimer(true)], corrected).woken == [m]
      && Run(c, [ReconnectTimer(true), SendResumes(true)], corrected).wire == [m]
  {
    var c0 := NewClient(host, port);
    var c1 := Step(c0, SendCall(m, true), corrected);
    var c2 := Step(c1, ConnectCall(false), corrected);
    assert Run(c0, [SendCall(m, true), ConnectCall(false)], corrected) == Run(c1, [ConnectCall(false)], corrected);
    assert Run(c1, [ConnectCall(false)], corrected) == c2;
    var c3 := Step(c2, ReconnectTimer(true), corrected);
    assert Run(c2, [ReconnectTimer(true)], corrected) == c3;
    assert Run(c2, [ReconnectTimer(true), SendResumes(true)], corrected) == Run(c3, [SendResumes(true)], corrected);
    assert Run(c3, [SendResumes(true)], corrected) == Step(c3, SendResumes(true), corrected);
  }

  function FrameEvents(i: nat, fs: seq<Frame>): (r: seq<Event>)
    ensures |r| == |fs| && forall k :: 0 <= k < |fs| ==> r[k] == FrameArrives(i, fs[k])
  {
    if |fs| == 0 then [] else FrameEvents(i, fs[..|fs| - 1]) + [FrameArrives(i, fs[|fs| - 1])]
  }

  /** The value of the most recent push of `key` among `fs`, or `before` if none pushed it. */
  function LastPush(fs: seq<Frame>, key: string, before: Value): Value {
    if |fs| == 0 then before
    else match Pushed(fs[|fs| - 1], key)
      case Some(v) => v
      case None => LastPush(fs[..|fs| - 1], key, before)
  }

  /** After any sequence of frames on a reading loop, the zone map is exactly the payload
      of the last zones push and the catalog exactly that of the last pattern-list push:
      each push replaces its key, nothing is merged. */
  lemma {:induction false} CacheHoldsLastPush(c: State, i: nat, fs: seq<Frame>, corrected: bool)
    requires i < |c.loops| && c.loops[i] == Reading
    requires forall k :: 0 <= k < |fs| ==> Harmless(fs[k])
    ensures var r := Run(c, FrameEvents(i, fs), corrected);
      && r.zones == LastPush(fs, ZONES_KEY, c.zones)
      && r.patterns == LastPush(fs, PATTERN_LIST_KEY, c.patterns)
      && r.loops == c.loops
    decreases |fs|
  {
    if |fs| > 0 {
      var init := fs[..|fs| - 1];
      var f := fs[|fs| - 1];
      CacheHoldsLastPush(c, i, init, corrected);
      RunConcat(c, FrameEvents(i, init), [FrameArrives(i, f)], corrected);
      var d := Run(c, FrameEvents(i, init), corrected);
      assert Run(d, [FrameArrives(i, f)], corrected) == Step(d, FrameArrives(i, f), corrected);
    }
  }
}

=== FILE: light.dfy ===
/**
 The light entity, driven by the controller's REST API: turning it on or off, then
 folding the status and effects responses into its state. The API client's requests
 are parameters: each response is the decoded JSON body, or null when the request
 failed (the API client returns `None` then).
 */
module Light {
  import opened Wrappers
  import opened Json

  const FULL := Int(255)

  /** The entity's state: `_is_on`, `_rgb_color`, `_effect`, `_available_effects`. */
  datatype LightState = LightState(isOn: Value, rgb: (Value, Value, Value), effect: Value, effectList: Value)

  /** The state after an update, and whether an exception escaped part-way through. */
  datatype Update = Update(light: LightState, raised: bool)

  /** The constructor: off, white, no effect, no effects known. */
  function InitialLight(): LightState {
    LightState(Bool(false), (FULL, FULL, FULL), Null, Arr([]))
  }

  /** `status.get("color", {})`. */
  function ColorOf(status: Fields): Value {
    Get(status, "color").GetOr(Obj([]))
  }

  /** `color.get(channel, 255)`. */
  function Channel(color: Fields, channel: string): Value {
    Get(color, channel).GetOr(FULL)
  }

  /** The status half of `async_update`. A false response (failed request, empty body)
      changes nothing. A true dictionary sets `is_on` from "on" (kept when absent), every
      colour channel from "color" with 255 for each missing one, and `effect` from
      "effect" (kept when absent). A true non-dictionary, or a "color" that is not a
      dictionary, raises; `is_on` is already updated when the colour raises. */
  function MergeStatus(l: LightState, status: Value): (r: Update)
    ensures !Truthy(status) ==> r == Update(l, false)
    ensures Truthy(status) && !status.Obj? ==> r == Update(l, true)
    ensures Truthy(status) && status.Obj? ==> r.light.isOn == Get(status.fields, "on").GetOr(l.isOn)
    ensures Truthy(status) && status.Obj? ==> r.light.effectList == l.effectList
    ensures Truthy(status) && status.Obj? ==> (r.raised <==> !ColorOf(status.fields).Obj?)
    ensures Truthy(status) && status.Obj? && r.raised ==> r.light.rgb == l.rgb && r.light.effect == l.effect
    ensures Truthy(status) && status.Obj? && !r.raised ==>
      var color := ColorOf(status.fields).fields;
      && r.light.rgb == (Channel(color, "r"), Channel(color, "g"), Channel(color, "b"))
      && r.light.effect == Get(status.fields, "effect").GetOr(l.effect)
  {
    if !Truthy(status) then Update(l, false)
    else if !status.Obj? then Update(l, true)
    else
      var l1 := l.(isOn := Get(status.fields, "on").GetOr(l.isOn));
      var color := ColorOf(status.fields);
      if !color.Obj? then Update(l1, true)
      else
        Update(l1.(rgb := (Channel(color.fields, "r"), Channel(color.fields, "g"), Channel(color.fields, "b")),
                   effect := Get(status.fields, "effect").GetOr(l.effect)), false)
  }

  /** The effects half of `async_update`: a true dictionary sets the effect list from
      "effects" ([] when absent); a false response leaves it; a true non-dictionary raises.
      Nothing else changes. */
  function MergeEffects(l: LightState, effects: Value): (r: Update)
    ensures r.light.(effectList := l.effectList) == l
    ensures r.raised <==> Truthy(effects) && !effects.Obj?
    ensures Truthy(effects) && effects.Obj? ==> r.light.effectList == Get(effects.fields, "effects").GetOr(Arr([]))
    ensures !(Truthy(effects) && effects.Obj?) ==> r.light == l
  {
    if !Truthy(effects) then Update(l, false)
    else if !effects.Obj? then Update(l, true)
    else Update(l.(effectList := Get(effects.fields, "effects").GetOr(Arr([]))), false)
  }

  /** `async_update`: the status merge, then (unless it raised) the effects merge. A false
      status leaves power, colour and effect as they were; the effect list changes only
      on a true effects dictionary. Whether an exception escapes depends on the responses
      alone. */
  function UpdateLight(l: LightState, status: Value, effects: Value): (r: Update)
    ensures MergeStatus(l, status).raised ==> r == MergeStatus(l, status)
    ensures !MergeStatus(l, status).raised ==> r == MergeEffects(MergeStatus(l, status).light, effects)
    ensures r.raised <==> (Truthy(status) && (!status.Obj? || !ColorOf(status.fields).Obj?))
                          || (Truthy(effects) && !effects.Obj?)
    ensures !Truthy(status) ==> r.light.(effectList := l.effectList) == l
    ensures !r.raised && Truthy(effects) ==> r.light.effectList == Get(effects.fields, "effects").GetOr(Arr([]))
    ensures !Truthy(effects) ==> r.light.effectList == l.effectList
  {
    var s := MergeStatus(l, status);
    if s.raised then s else MergeEffects(s.light, effects)
  }

  /** `async_turn_on`: records the requested colour and effect if given, marks the light
      on, then updates from the API's responses. */
  function TurnOn(l: LightState, rgb: Option<(int, int, int)>, effect: Option<Value>, status: Value, effects: Value): (r: Update)
    ensures var l1 := LightState(Bool(true),
                                 if rgb.Some? then (Int(rgb.value.0), Int(rgb.value.1), Int(rgb.value.2)) else l.rgb,
                                 effect.GetOr(l.effect), l.effectList);
            r == UpdateLight(l1, status, effects)
    ensures r.light.isOn == if Truthy(status) && status.Obj? then Get(status.fields, "on").GetOr(Bool(true)) else Bool(true)
    ensures !Truthy(status) ==> r.light.rgb == if rgb.Some? then (Int(rgb.value.0), Int(rgb.value.1), Int(rgb.value.2)) else l.rgb
    ensures !Truthy(status) ==> r.light.effect == effect.GetOr(l.effect)
    ensures r.raised == UpdateLight(l, status, effects).raised
  {
    var l1 := match rgb
      case Some((red, green, blue)) => l.(rgb := (Int(red), Int(green), Int(blue)))
      case None => l;
    var l2 := match effect
      case Some(e) => l1.(effect := e)
      case None => l1;
    UpdateLight(l2.(isOn := Bool(true)), status, effects)
  }

  /** `async_turn_off`: marks the light off, then updates from the API's responses. */
  function TurnOff(l: LightState, status: Value, effects: Value): (r: Update)
    ensures r == UpdateLight(l.(isOn := Bool(false)), status, effects)
    ensures r.light.isOn == if Truthy(status) && status.Obj? then Get(status.fields, "on").GetOr(Bool(false)) else Bool(false)
    ensures !Truthy(status) ==> r.light.rgb == l.rgb && r.light.effect == l.effect
    ensures r.raised == UpdateLight(l, status, effects).raised
  {
    UpdateLight(l.(isOn := Bool(false)), status, effects)
  }

  /** A status without "color" resets the colour to white, whatever it was: the colour a
      turn_on just set is lost. */
  lemma MissingColorMeansWhite(l: LightState, rgb: Option<(int, int, int)>, status: Value, effects: Value)
    requires Truthy(status) && status.Obj? && !Has(status.fields, "color")
    ensures TurnOn(l, rgb, None, status, effects).light.rgb == (FULL, FULL, FULL)
  {
  }

  /** Updating twice with the same responses is the same as updating once, whether or
      not the update raises. */
  lemma UpdateIdempotent(l: LightState, status: Value, effects: Value)
    ensures UpdateLight(UpdateLight(l, status, effects).light, status, effects) == UpdateLight(l, status, effects)
  {
  }

  /** The colour after a successful status merge depends on the response alone. */
  lemma ColorFromStatusOnly(a: LightState, b: LightState, status: Value)
    requires !MergeStatus(a, status).raised && Truthy(status)
    ensures MergeStatus(a, status).light.rgb == MergeStatus(b, status).light.rgb
  {
  }

  /** A new light stays as constructed while both requests fail. */
  lemma InitialWithoutResponses()
    ensures UpdateLight(InitialLight(), Null, Null) == Update(InitialLight(), false)
    ensures InitialLight().isOn == Bool(false) && InitialLight().rgb == (FULL, FULL, FULL)
  {
  }
}

=== FILE: platforms.dfy ===
/** Properties that relate the select and sensor platforms. */
module Platforms {
  import Select
  import Sensor

  /** A pattern select and a pattern sensor never share a unique id, whatever their zones. */
  lemma UniqueIdsDisjoint(e: Select.PatternSelect, zone: string)
    ensures Select.UniqueId(e) != Sensor.NewSensor(zone).uniqueId
  {
    assert Select.UniqueId(e)[10] == 'p';
    assert Sensor.NewSensor(zone).uniqueId[10] == 'c';
  }

  /** Display names, unlike unique ids, can coincide: the select of zone "A Current" and
      the sensor of zone "A" are both called "Jellyfish A Current Pattern". */
  lemma NamesCanCoincide()
    ensures Select.SelectName("A Current") == Sensor.NewSensor("A").name
  {
  }
}

=== FILE: protocol.dfy ===
/**
 The controller's WebSocket protocol as the client speaks it: the endpoint URL,
 frame kinds, the decoding of inbound pushes into cache writes and notifications,
 and the fixed-shape outbound command messages.
 */
module Protocol {
  import opened Wrappers
  import opened Json
  import opened Decimal

  const DEFAULT_PORT := 9000
  const RECONNECT_DELAY := 5

  /** The message type codes the read loop tests: 1 is aiohttp's text type, and the code
      labels 3 as binary (aiohttp's binary type is 2, and no type has code 3). Every frame
      whose type is not 1 is skipped either way. */
  const TEXT := 1
  const BINARY := 3

  const FROM_CONTROLLER := "fromCtlr"
  const PATTERN_LIST_KEY := "patternFileList"
  const ZONES_KEY := "zones"

  const SCHEME := "ws://"
  const PATH := "/ws"

  /** The controller endpoint `ws://<host>:<port>/ws`. */
  function Url(host: string, port: int): string {
    SCHEME + host + ":" + IntToString(port) + PATH
  }

  /** Index of the last ':' in `s`. */
  function LastColon(s: string): (r: Option<nat>)
    ensures r.Some? ==> r.value < |s| && s[r.value] == ':' && ':' !in s[r.value + 1..]
    ensures r.None? ==> ':' !in s
  {
    if |s| == 0 then None
    else if s[|s| - 1] == ':' then Some(|s| - 1)
    else
      var r := LastColon(s[..|s| - 1]);
      assert s == s[..|s| - 1] + [s[|s| - 1]];
      r
  }

  /** Splits an endpoint URL back into host and port; absent when it is not of that form. */
  function ParseUrl(u: string): Option<(string, int)> {
    if |u| >= |SCHEME| + |PATH| && u[..|SCHEME|] == SCHEME && u[|u| - |PATH|..] == PATH then
      var authority := u[|SCHEME|..|u| - |PATH|];
      match LastColon(authority)
      case None => None
      case Some(k) =>
        match ParseInt(authority[k + 1..])
        case None => None
        case Some(port) => Some((authority[..k], port))
    else None
  }

  lemma {:induction false} LastColonOfJoin(host: string, tail: string)
    requires ':' !in tail
    ensures LastColon(host + ":" + tail) == Some(|host|)
  {
    var s := host + ":" + tail;
    if |tail| > 0 {
      assert s[..|s| - 1] == host + ":" + tail[..|tail| - 1];
      assert s[|s| - 1] == tail[|tail| - 1];
      LastColonOfJoin(host, tail[..|tail| - 1]);
    }
  }

  lemma SliceParts(a: string, b: string, c: string)
    ensures var s := a + b + c;
      s[..|a|] == a && s[|a|..|s| - |c|] == b && s[|s| - |c|..] == c
  {
    var s := a + b + c;
    assert s[..|a|] == a;
    assert s[|a|..|s| - |c|] == b;
    assert s[|s| - |c|..] == c;
  }

  /** The authority `host:port` splits at its last ':' back into host and port. */
  lemma AuthorityRoundTrip(host: string, port: int)
    ensures var a := host + ":" + IntToString(port);
      && LastColon(a) == Some(|host|)
      && a[..|host|] == host
      && ParseInt(a[|host| + 1..]) == Some(port)
  {
    var digits := IntToString(port);
    var a := host + ":" + digits;
    LastColonOfJoin(host, digits);
    assert a[|host| + 1..] == digits;
    assert a[..|host|] == host;
    IntRoundTrip(port);
  }

  /** The URL the client dials names the host and port it was built with, whatever
      characters the host holds (an IPv6 literal included). */
  lemma UrlRoundTrip(host: string, port: int)
    ensures ParseUrl(Url(host, port)) == Some((host, port))
  {
    var authority := host + ":" + IntToString(port);
    var u := SCHEME + authority + PATH;
    assert Url(host, port) == u;
    SliceParts(SCHEME, authority, PATH);
    assert u[|SCHEME|..|u| - |PATH|] == authority;
    AuthorityRoundTrip(host, port);
  }

  /** Without an explicit port the client dials port 9000. */
  lemma DefaultUrl(host: string)
    ensures Url(host, DEFAULT_PORT) == "ws://" + host + ":9000/ws"
  {
    assert NatToString(9) == "9";
    assert NatToString(90) == "90";
    assert NatToString(900) == "900";
    assert NatToString(9000) == "9000";
  }

  /** One WebSocket message as the read loop receives it: its aiohttp type code and, for a
      text message, the result of `json.loads` on its data (absent when that raises). */
  datatype Frame = Frame(msgType: int, decoded: Option<Value>)

  /** The two dispatcher signals. */
  datatype Signal = PatternsUpdated | ZonesUpdated

  /** What handling one message does, in order. */
  datatype Effect = SetPatterns(patterns: Value) | SetZones(zones: Value) | Notify(signal: Signal)

  /** The outcome of handling one text message: a list of effects, or an exception
      escaping the handler into the read loop. */
  datatype Reaction = Perform(effects: seq<Effect>) | Raise

  predicate FromController(v: Value) {
    v.Obj? && Get(v.fields, "cmd") == Some(Str(FROM_CONTROLLER))
  }

  /** The write that `signal` announces. */
  predicate Announces(e: Effect, signal: Signal) {
    match signal
    case PatternsUpdated => e.SetPatterns?
    case ZonesUpdated => e.SetZones?
  }

  /** Every notification directly follows the cache write it announces, and every cache
      write is directly followed by its notification. */
  predicate WriteThenNotify(effects: seq<Effect>) {
    && (forall k :: 0 <= k < |effects| && effects[k].Notify? ==> k > 0 && Announces(effects[k - 1], effects[k].signal))
    && (forall k :: 0 <= k < |effects| && !effects[k].Notify? ==>
          k + 1 < |effects| && effects[k + 1].Notify? && Announces(effects[k], effects[k + 1].signal))
  }

  /** `decoded` is a controller push carrying `key` with value `v`. */
  predicate PushesValue(decoded: Option<Value>, key: string, v: Value) {
    decoded.Some? && FromController(decoded.value) && Get(decoded.value.fields, key) == Some(v)
  }

  /** The effects write the catalog with exactly the pushed `patternFileList` value and
      the zone map with exactly the pushed `zones` value, nothing when a key is not
      pushed, and no effect twice. */
  ghost predicate CarriesPushes(decoded: Option<Value>, effects: seq<Effect>) {
    && (forall p :: SetPatterns(p) in effects <==> PushesValue(decoded, PATTERN_LIST_KEY, p))
    && (forall z :: SetZones(z) in effects <==> PushesValue(decoded, ZONES_KEY, z))
    && (forall i, j :: 0 <= i < j < |effects| ==> effects[i] != effects[j])
  }

  /** Handling of one decoded text message. A message that is not JSON, or whose `cmd`
      is not "fromCtlr", does nothing; JSON that is not an object makes `payload.get`
      raise. A controller push replaces the pattern catalog, then the zone map, each
      followed by its notification. */
  function HandleMessage(decoded: Option<Value>): (r: Reaction)
    ensures r.Raise? <==> decoded.Some? && !decoded.value.Obj?
    ensures r.Perform? && |r.effects| > 0 ==> decoded.Some? && FromController(decoded.value)
    ensures r.Perform? ==> WriteThenNotify(r.effects)
    ensures r.Perform? ==> CarriesPushes(decoded, r.effects)
    ensures r.Perform? ==> forall i, j :: 0 <= i < |r.effects| && 0 <= j < |r.effects| && r.effects[i].SetPatterns? && r.effects[j].SetZones? ==> i < j
  {
    match decoded
    case None => Perform([])
    case Some(payload) =>
      if !payload.Obj? then Raise
      else if !FromController(payload) then Perform([])
      else
        Perform(PatternEffects(payload.fields) + ZoneEffects(payload.fields))
  }

  /** The `patternFileList` half of a controller push: the write and its notification. */
  function PatternEffects(fields: Fields): seq<Effect> {
    match Get(fields, PATTERN_LIST_KEY)
    case Some(p) => [SetPatterns(p), Notify(PatternsUpdated)]
    case None => []
  }

  /** The `zones` half of a controller push: the write and its notification. */
  function ZoneEffects(fields: Fields): seq<Effect> {
    match Get(fields, ZONES_KEY)
    case Some(z) => [SetZones(z), Notify(ZonesUpdated)]
    case None => []
  }

  /** The value a push carries under `key`, when the frame is a text frame holding a
      controller push with that member. */
  function Pushed(f: Frame, key: string): Option<Value> {
    if f.msgType == TEXT && f.decoded.Some? && FromController(f.decoded.value)
    then Get(f.decoded.value.fields, key)
    else None
  }

  /** A frame the read loop survives: anything but a text frame whose handler raises. */
  predicate Harmless(f: Frame) {
    !(f.msgType == TEXT && HandleMessage(f.decoded).Raise?)
  }

  /** The outbound requests, in the wire view: a `toCtlrGet` for one path, or a
      `toCtlrSet` running a pattern. */
  datatype Request =
    | Query(path: seq<Value>)
    | RunPatternRequest(file: Value, data: Value, id: Value, state: Value, zoneName: Value)

  /** The message `json.dumps` serialises for a request, members in source order. */
  function Render(q: Request): Value {
    match q
    case Query(path) =>
      Obj([("cmd", Str("toCtlrGet")), ("get", Arr([Arr(path)]))])
    case RunPatternRequest(file, data, id, state, zoneName) =>
      Obj([("cmd", Str("toCtlrSet")),
           ("runPattern", Obj([("file", file), ("data", data), ("id", id), ("state", state), ("zoneName", zoneName)]))])
  }

  /** Recognises an outbound message by its shape; absent for anything else. */
  function ParseRequest(m: Value): Option<Request> {
    if m.Obj? && |m.fields| == 2 && m.fields[0] == ("cmd", Str("toCtlrGet")) && m.fields[1].0 == "get"
       && m.fields[1].1.Arr? && |m.fields[1].1.items| == 1 && m.fields[1].1.items[0].Arr?
    then Some(Query(m.fields[1].1.items[0].items))
    else if m.Obj? && |m.fields| == 2 && m.fields[0] == ("cmd", Str("toCtlrSet")) && m.fields[1].0 == "runPattern"
       && m.fields[1].1.Obj? && |m.fields[1].1.fields| == 5
    then
      var inner := m.fields[1].1.fields;
      if inner[0].0 == "file" && inner[1].0 == "data" && inner[2].0 == "id" && inner[3].0 == "state" && inner[4].0 == "zoneName"
      then Some(RunPatternRequest(inner[0].1, inner[1].1, inner[2].1, inner[3].1, inner[4].1))
      else None
    else None
  }

  lemma ParseRender(q: Request)
    ensures ParseRequest(Render(q)) == Some(q)
  {
  }

  lemma RenderParse(m: Value)
    ensures ParseRequest(m).Some? ==> Render(ParseRequest(m).value) == m
  {
    if ParseRequest(m).Some? {
      var q := ParseRequest(m).value;
      assert m.fields == [m.fields[0], m.fields[1]];
      if q.RunPatternRequest? {
        var inner := m.fields[1].1.fields;
        assert inner == [("file", q.file), ("data", q.data), ("id", q.id), ("state", q.state), ("zoneName", q.zoneName)];
      } else {
        assert m.fields[1].1.items == [m.fields[1].1.items[0]];
      }
    }
  }

  function RequestPatternListMessage(): (m: Value)
    ensures ParseRequest(m) == Some(Query([Str(PATTERN_LIST_KEY)]))
  {
    Render(Query([Str(PATTERN_LIST_KEY)]))
  }

  function RequestZonesMessage(): (m: Value)
    ensures ParseRequest(m) == Some(Query([Str(ZONES_KEY)]))
  {
    Render(Query([Str(ZONES_KEY)]))
  }

  function PatternFileDataMessage(folder: Value, filename: Value): (m: Value)
    ensures ParseRequest(m) == Some(Query([Str("patternFileData"), folder, filename]))
  {
    Render(Query([Str("patternFileData"), folder, filename]))
  }

  /** `run_pattern`: a named pattern file, with empty `data` and `id`. */
  function RunPatternMessage(file: Value, zoneNames: Value, state: Value): (m: Value)
    ensures ParseRequest(m) == Some(RunPatternRequest(file, Str(""), Str(""), state, zoneNames))
  {
    Render(RunPatternRequest(file, Str(""), Str(""), state, zoneNames))
  }

  /** `run_pattern_advanced`: inline pattern data, with empty `file` and `id`. */
  function RunPatternAdvancedMessage(data: Value, zoneNames: Value, state: Value): (m: Value)
    ensures ParseRequest(m) == Some(RunPatternRequest(Str(""), data, Str(""), state, zoneNames))
  {
    Render(RunPatternRequest(Str(""), data, Str(""), state, zoneNames))
  }

  /** The two pattern commands share one wire shape: running the pattern file "" is the
      same message as running the inline data "". */
  lemma RunPatternVariantsOverlap(zoneNames: Value, state: Value)
    ensures RunPatternMessage(Str(""), zoneNames, state) == RunPatternAdvancedMessage(Str(""), zoneNames, state)
  {
  }

  /** Distinct `run_pattern` arguments give distinct messages. */
  lemma RunPatternInjective(f1: Value, z1: Value, s1: Value, f2: Value, z2: Value, s2: Value)
    requires RunPatternMessage(f1, z1, s1) == RunPatternMessage(f2, z2, s2)
    ensures f1 == f2 && z1 == z2 && s1 == s2
  {
    assert ParseRequest(RunPatternMessage(f1, z1, s1)) == ParseRequest(RunPatternMessage(f2, z2, s2));
  }

  /** The serialised form of `run_pattern(file="sunset", zone_names=["Pool"], state=1)`. */
  lemma SunsetMessage()
    ensures RunPatternMessage(Str("sunset"), Arr([Str("Pool")]), Int(1))
         == Obj([("cmd", Str("toCtlrSet")),
                 ("runPattern", Obj([("file", Str("sunset")), ("data", Str("")), ("id", Str("")),
                                     ("state", Int(1)), ("zoneName", Arr([Str("Pool")]))]))])
  {
  }
}

=== FILE: select.dfy ===
/**
 The select platform: one pattern-select entity per zone, created as zones appear,
 whose options are the pattern catalog's names; and the integration's service
 handlers, which turn service-call data into client commands.
 */
module Select {
  import opened Wrappers
  import opened Json
  import opened Protocol
  import opened JellyfishClient
  import opened ZoneEntities

  const UNKNOWN := "Unknown"
  const SELECT_ID_PREFIX := "jellyfish_pattern_select_"

  /** A `JellyfishPatternSelect`. */
  datatype PatternSelect = PatternSelect(zoneName: string, name: string, options: seq<Value>, currentOption: Option<string>)

  function SelectName(zone: string): string {
    "Jellyfish " + zone + " Pattern"
  }

  /** The entity's `unique_id`. */
  function UniqueId(e: PatternSelect): string {
    SELECT_ID_PREFIX + e.zoneName
  }

  /** Distinct zones give distinct unique ids. */
  lemma UniqueIdInjective(a: PatternSelect, b: PatternSelect)
    requires UniqueId(a) == UniqueId(b)
    ensures a.zoneName == b.zoneName
  {
    assert UniqueId(a)[|SELECT_ID_PREFIX|..] == a.zoneName;
    assert UniqueId(b)[|SELECT_ID_PREFIX|..] == b.zoneName;
  }

  /** `pat.get("name", "Unknown")` for each catalog entry; absent when an entry is not a
      dictionary, where `.get` raises. */
  function NamesOf(items: seq<Value>): (r: Option<seq<Value>>)
    ensures r.Some? <==> forall i :: 0 <= i < |items| ==> items[i].Obj?
    ensures r.Some? ==> |r.value| == |items|
    ensures r.Some? ==> forall i :: 0 <= i < |items| ==> r.value[i] == Get(items[i].fields, "name").GetOr(Str(UNKNOWN))
  {
    if |items| == 0 then Some([])
    else if !items[0].Obj? then None
    else match NamesOf(items[1..])
      case None => None
      case Some(rest) => Some([Get(items[0].fields, "name").GetOr(Str(UNKNOWN))] + rest)
  }

  /** `_get_patterns`: the options are the catalog's names in catalog order, "Unknown" for
      an entry without a name. A catalog that is not a list of dictionaries raises, except
      an empty dictionary or string, over which the loop has nothing to visit. */
  function PatternOptions(patterns: Value): (r: Option<seq<Value>>)
    ensures r.Some? <==> (patterns.Arr? && forall i :: 0 <= i < |patterns.items| ==> patterns.items[i].Obj?)
                         || ((patterns.Obj? || patterns.Str?) && !Truthy(patterns))
    ensures r.Some? && patterns.Arr? ==> |r.value| == |patterns.items|
    ensures r.Some? && patterns.Arr? ==>
      forall i :: 0 <= i < |patterns.items| ==> r.value[i] == Get(patterns.items[i].fields, "name").GetOr(Str(UNKNOWN))
    ensures r.Some? && !patterns.Arr? ==> r.value == []
  {
    match Iterate(patterns)
    case None => None
    case Some(items) =>
      assert (patterns.Obj? || patterns.Str?) && |items| > 0 ==> !items[0].Obj?;
      NamesOf(items)
  }

  /** The constructor: named after its zone, options from the catalog, no current option.
      It raises (absent) when the options cannot be computed. */
  function NewPatternSelect(patterns: Value, zone: string): (r: Option<PatternSelect>)
    ensures r.Some? <==> PatternOptions(patterns).Some?
    ensures r.Some? ==> r.value.zoneName == zone && r.value.name == SelectName(zone)
    ensures r.Some? ==> r.value.options == PatternOptions(patterns).value && r.value.currentOption.None?
  {
    match PatternOptions(patterns)
    case None => None
    case Some(options) => Some(PatternSelect(zone, SelectName(zone), options, None))
  }

  /** `_handle_patterns_updated`: the options are recomputed from the current catalog. */
  function RefreshOptions(e: PatternSelect, patterns: Value): (r: Option<PatternSelect>)
    ensures r.Some? <==> PatternOptions(patterns).Some?
    ensures r.Some? ==> r.value == e.(options := PatternOptions(patterns).value)
  {
    match PatternOptions(patterns)
    case None => None
    case Some(options) => Some(e.(options := options))
  }

  /** `async_select_option`: runs the chosen pattern file on this entity's zone with
      state 1, then records the option. When the client is not ready the call waits in
      `_send`, and the option is recorded only once it resumes. */
  function SelectOption(e: PatternSelect, c: State, option: string, delivered: bool): (r: (PatternSelect, State))
    ensures SentRequest(c, r.1, RunPatternRequest(Str(option), Str(""), Str(""), Int(1), Arr([Str(e.zoneName)])), delivered)
    ensures c.ready ==> r.0 == e.(currentOption := Some(option))
    ensures !c.ready ==> r.0 == e
  {
    var c1 := RunPattern(c, Str(option), Arr([Str(e.zoneName)]), Int(1), delivered);
    (if c.ready then e.(currentOption := Some(option)) else e, c1)
  }

  function ZoneOf(e: PatternSelect): string {
    e.zoneName
  }

  /** `add_zone_select_entities`. Every zone key ends up in `added_zones`, which only
      grows; an entity is created for exactly the keys not recorded before, in key order;
      `async_add_entities` is called only when there is one. A zone map that is not a
      dictionary raises, and so does the first new entity when the catalog's options
      cannot be computed; either way nothing is recorded (absent result). */
  method AddZoneSelectEntities(zones: Value, patterns: Value, added: set<string>)
    returns (r: Option<Addition<PatternSelect>>)
    ensures r.None? <==> !zones.Obj? || (PatternOptions(patterns).None? && !(Elems(Keys(zones.fields)) <= added))
    ensures r.Some? ==> r.value.addedZones == added + Elems(Keys(zones.fields))
    ensures r.Some? ==> NewInOrder(ZoneNames(r.value.entities, ZoneOf), Keys(zones.fields), added)
    ensures r.Some? ==> forall i :: 0 <= i < |r.value.entities| ==>
      Some(r.value.entities[i]) == NewPatternSelect(patterns, r.value.entities[i].zoneName)
    ensures r.Some? ==> (r.value.callsAdd <==> |r.value.entities| > 0)
    ensures r.Some? && Elems(Keys(zones.fields)) <= added ==> r.value.entities == [] && !r.value.callsAdd
  {
    if !zones.Obj? {
      return None;
    }
    var keys := Keys(zones.fields);
    var created, after := NewZones(keys, added);
    assert |created| > 0 <==> !(Elems(keys) <= added) by {
      if |created| > 0 { assert created[0] in keys && created[0] !in added; }
      if !(Elems(keys) <= added) { var z :| z in Elems(keys) && z !in added; assert z in created; }
    }
    if |created| > 0 && PatternOptions(patterns).None? {
      return None;
    }
    var entities := seq(|created|, i requires 0 <= i < |created| => PatternSelect(created[i], SelectName(created[i]), PatternOptions(patterns).value, None));
    assert ZoneNames(entities, ZoneOf) == created;
    return Some(Addition(after, entities, |entities| > 0));
  }

  /** `call.data.get(key, default)`. */
  function Arg(data: Fields, key: string, default: Value): Value {
    Get(data, key).GetOr(default)
  }

  /** The `run_pattern` service: `file` defaults to "", `zone_names` to [] and `state` to 1. */
  function RunPatternService(c: State, data: Fields, delivered: bool): (r: State)
    ensures SentRequest(c, r, RunPatternRequest(Arg(data, "file", Str("")), Str(""), Str(""),
                                                Arg(data, "state", Int(1)), Arg(data, "zone_names", Arr([]))), delivered)
  {
    RunPattern(c, Arg(data, "file", Str("")), Arg(data, "zone_names", Arr([])), Arg(data, "state", Int(1)), delivered)
  }

  /** The `run_pattern_advanced` service: `data` defaults to "", `zone_names` to [] and
      `state` to 1. */
  function RunPatternAdvancedService(c: State, data: Fields, delivered: bool): (r: State)
    ensures SentRequest(c, r, RunPatternRequest(Str(""), Arg(data, "data", Str("")), Str(""),
                                                Arg(data, "state", Int(1)), Arg(data, "zone_names", Arr([]))), delivered)
  {
    RunPatternAdvanced(c, Arg(data, "data", Str("")), Arg(data, "zone_names", Arr([])), Arg(data, "state", Int(1)), delivered)
  }

  /** The `get_pattern_data` service: a missing `folder` or `filename` is sent as null;
      the result is the client's constant true. */
  function PatternDataService(c: State, data: Fields, delivered: bool): (r: (State, bool))
    ensures r.1
    ensures SentRequest(c, r.0, Query([Str("patternFileData"), Arg(data, "folder", Null), Arg(data, "filename", Null)]), delivered)
  {
    GetPatternFileData(c, Arg(data, "folder", Null), Arg(data, "filename", Null), delivered)
  }

  /** A service call with no data, on a connected client whose write succeeds, puts
      exactly the message for pattern file "" on no zones with state 1 on the wire. */
  lemma RunPatternServiceDefaults(c: State)
    requires c.ready && c.hasWs
    ensures RunPatternService(c, [], true).wire
         == c.wire + [Obj([("cmd", Str("toCtlrSet")),
                           ("runPattern", Obj([("file", Str("")), ("data", Str("")), ("id", Str("")),
                                               ("state", Int(1)), ("zoneName", Arr([]))]))])]
  {
  }

  /** One stored config entry, `hass.data[DOMAIN][entry_id]`: its client and, if the
      dictionary had one, an "entities" list. */
  datatype Entry = Entry(client: State, entities: Option<seq<PatternSelect>>)

  /** What setup stores: the client and the config entry, and no "entities" key. */
  function StoredEntry(c: State): Entry {
    Entry(c, None)
  }

  datatype ZonePatternOutcome = ZoneNotFound | Raised

  /** Entry `e` stops the `set_zone_pattern` search with an exception: its zone map is not
      a dictionary, or it has the zone and a select entity for it, whose missing
      `async_set_pattern` raises `AttributeError`. */
  predicate Stops(e: Entry, zone: Value) {
    || !e.client.zones.Obj?
    || (zone.Str? && zone.s in Keys(e.client.zones.fields)
        && exists k :: 0 <= k < |e.entities.GetOr([])| && Str(e.entities.GetOr([])[k].zoneName) == zone)
  }

  /** The `set_zone_pattern` service: scans every entry's zones for the requested one and
      that entry's entities for a match; when the scan finishes, a warning is logged. */
  function SetZonePattern(entries: seq<Entry>, zone: Value): (r: ZonePatternOutcome)
    ensures r == Raised <==> exists k :: 0 <= k < |entries| && Stops(entries[k], zone)
  {
    if |entries| == 0 then ZoneNotFound
    else if Stops(entries[0], zone) then Raised
    else
      var r := SetZonePattern(entries[1..], zone);
      assert (exists k :: 0 <= k < |entries| && Stops(entries[k], zone))
         <==> (exists k :: 0 <= k < |entries[1..]| && Stops(entries[1..][k], zone)) by {
        if exists k :: 0 <= k < |entries| && Stops(entries[k], zone) {
          var k :| 0 <= k < |entries| && Stops(entries[k], zone);
          assert k > 0 && entries[1..][k - 1] == entries[k];
        }
        if exists k :: 0 <= k < |entries[1..]| && Stops(entries[1..][k], zone) {
          var k :| 0 <= k < |entries[1..]| && Stops(entries[1..][k], zone);
          assert entries[k + 1] == entries[1..][k];
        }
      }
      r
  }

  /** Entries as setup stores them never carry entities, so as long as every zone map is
      a dictionary the service always ends in its "not found" warning. */
  lemma StoredEntriesAlwaysWarn(clients: seq<State>, zone: Value)
    requires forall k :: 0 <= k < |clients| ==> clients[k].zones.Obj?
    ensures SetZonePattern(seq(|clients|, k requires 0 <= k < |clients| => StoredEntry(clients[k])), zone) == ZoneNotFound
  {
  }
}

=== FILE: sensor.dfy ===
/**
 The sensor platform: one current-pattern sensor per zone, created as zones appear,
 whose state is the zone's `currentPattern`.
 */
module Sensor {
  import opened Wrappers
  import opened Json
  import opened ZoneEntities

  const SENSOR_ID_PREFIX := "jellyfish_current_pattern_"

  /** A `JellyfishCurrentPatternSensor`. */
  datatype PatternSensor = PatternSensor(zoneName: string, name: string, uniqueId: string, state: Value)

  /** The constructor: named and identified after its zone, with no state yet. */
  function NewSensor(zone: string): (s: PatternSensor)
    ensures s.zoneName == zone && s.state == Null
    ensures s.name == "Jellyfish " + zone + " Current Pattern"
    ensures s.uniqueId == SENSOR_ID_PREFIX + zone
  {
    PatternSensor(zone, "Jellyfish " + zone + " Current Pattern", SENSOR_ID_PREFIX + zone, Null)
  }

  /** Distinct zones give distinct unique ids. */
  lemma UniqueIdInjective(a: string, b: string)
    requires NewSensor(a).uniqueId == NewSensor(b).uniqueId
    ensures a == b
  {
    assert NewSensor(a).uniqueId[|SENSOR_ID_PREFIX|..] == a;
    assert NewSensor(b).uniqueId[|SENSOR_ID_PREFIX|..] == b;
  }

  /** `_handle_zone_update`. A zone present with a non-empty attribute dictionary puts its
      `currentPattern` in the state (null when it has none); an absent zone or an empty
      (false) attribute value clears the state. A zone map that is not a dictionary, or
      true attributes that are not one, make `.get` raise (absent result). Only the state
      changes. */
  function HandleZoneUpdate(s: PatternSensor, zones: Value): (r: Option<PatternSensor>)
    ensures r.None? <==> (!zones.Obj? ||
      (Get(zones.fields, s.zoneName).Some? && Truthy(Get(zones.fields, s.zoneName).value) && !Get(zones.fields, s.zoneName).value.Obj?))
    ensures r.Some? ==> r.value.(state := s.state) == s
    ensures zones.Obj? && Get(zones.fields, s.zoneName).Some? && Get(zones.fields, s.zoneName).value.Obj?
            && Truthy(Get(zones.fields, s.zoneName).value)
            ==> r == Some(s.(state := Get(Get(zones.fields, s.zoneName).value.fields, "currentPattern").GetOr(Null)))
    ensures zones.Obj? && (Get(zones.fields, s.zoneName).None? || !Truthy(Get(zones.fields, s.zoneName).value))
            ==> r == Some(s.(state := Null))
  {
    if !zones.Obj? then None
    else
      var zoneData := Get(zones.fields, s.zoneName).GetOr(Null);
      if Truthy(zoneData) then
        if zoneData.Obj? then Some(s.(state := Get(zoneData.fields, "currentPattern").GetOr(Null)))
        else None
      else Some(s.(state := Null))
  }

  function ZoneOf(s: PatternSensor): string {
    s.zoneName
  }

  /** `add_zone_sensors`. Every zone key ends up in `added_zones`, which only grows; a
      sensor is created for exactly the keys not recorded before, in key order;
      `async_add_entities` is called only when there is one. A zone map that is not a
      dictionary raises (absent result). */
  method AddZoneSensors(zones: Value, added: set<string>) returns (r: Option<Addition<PatternSensor>>)
    ensures r.None? <==> !zones.Obj?
    ensures r.Some? ==> r.value.addedZones == added + Elems(Keys(zones.fields))
    ensures r.Some? ==> NewInOrder(ZoneNames(r.value.entities, ZoneOf), Keys(zones.fields), added)
    ensures r.Some? ==> forall i :: 0 <= i < |r.value.entities| ==> r.value.entities[i] == NewSensor(r.value.entities[i].zoneName)
    ensures r.Some? ==> (r.value.callsAdd <==> |r.value.entities| > 0)
    ensures r.Some? && Elems(Keys(zones.fields)) <= added ==> r.value.entities == [] && !r.value.callsAdd
  {
    if !zones.Obj? {
      return None;
    }
    var keys := Keys(zones.fields);
    var created, after := NewZones(keys, added);
    assert |created| > 0 ==> !(Elems(keys) <= added) by {
      if |created| > 0 { assert created[0] in keys && created[0] !in added; }
    }
    var sensors := seq(|created|, i requires 0 <= i < |created| => NewSensor(created[i]));
    assert ZoneNames(sensors, ZoneOf) == created;
    return Some(Addition(after, sensors, |sensors| > 0));
  }
}

=== FILE: wrappers.dfy ===
/** The optional-value datatype used throughout the model. */
module Wrappers {

  /** A value that may be absent: Python's `None` on one side, a present value on the other. */
  datatype Option<+T> = None | Some(value: T) {

    /** The present value, or `default` when absent (Python's `d.get(k, default)`). */
    function GetOr(default: T): T {
      match this
      case Some(v) => v
      case None => default
    }
  }
}

=== FILE: zone_entities.dfy ===
/**
 The zone diffing shared by the select and sensor platforms: each time the zone map
 changes, an entity is created for every zone key not seen before, in key order, and
 every key is recorded as seen.
 */
module ZoneEntities {

  function Elems(keys: seq<string>): set<string> {
    set k | k in keys
  }

  /** Position of the first occurrence of `z` in `keys`. */
  function FirstIndex(keys: seq<string>, z: string): (r: nat)
    requires z in keys
    ensures r < |keys| && keys[r] == z && z !in keys[..r]
  {
    if keys[0] == z then 0
    else
      var r := 1 + FirstIndex(keys[1..], z);
      assert keys[..r] == [keys[0]] + keys[1..][..r - 1];
      r
  }

  lemma FirstIndexAt(keys: seq<string>, n: nat)
    requires n < |keys| && keys[n] !in keys[..n]
    ensures FirstIndex(keys, keys[n]) == n
  {
  }

  /** The zones of a list of entities, in order, given how to read an entity's zone. */
  function ZoneNames<E>(es: seq<E>, zoneOf: E -> string): (r: seq<string>)
    ensures |r| == |es| && forall i :: 0 <= i < |es| ==> r[i] == zoneOf(es[i])
  {
    seq(|es|, i requires 0 <= i < |es| => zoneOf(es[i]))
  }

  /** `created` lists exactly the keys not in `added`, each once, in the order they first
      appear in `keys`. */
  predicate NewInOrder(created: seq<string>, keys: seq<string>, added: set<string>) {
    && (forall z :: z in created ==> z in keys && z !in added)
    && (forall z :: z in keys && z !in added ==> z in created)
    && (forall i, j :: 0 <= i < j < |created| ==> created[i] != created[j])
    && (forall i, j :: 0 <= i < j < |created| ==>
          created[i] in keys && created[j] in keys && FirstIndex(keys, created[i]) < FirstIndex(keys, created[j]))
  }

  /** What one diffing pass leaves behind: the recorded zones, the entities created (in
      order), and whether `async_add_entities` is called. */
  datatype Addition<E> = Addition(addedZones: set<string>, entities: seq<E>, callsAdd: bool)

  /** The loop over `client.zones.keys()`: a key not yet in `added_zones` yields a new
      entity and is recorded. */
  method NewZones(keys: seq<string>, added: set<string>) returns (created: seq<string>, after: set<string>)
    ensures after == added + Elems(keys)
    ensures NewInOrder(created, keys, added)
  {
    created := [];
    after := added;
    var n := 0;
    while n < |keys|
      invariant n <= |keys|
      invariant after == added + Elems(keys[..n])
      invariant forall z :: z in created <==> z in keys[..n] && z !in added
      invariant forall i, j :: 0 <= i < j < |created| ==> created[i] != created[j]
      invariant forall i :: 0 <= i < |created| ==> created[i] in keys && FirstIndex(keys, created[i]) < n
      invariant forall i, j :: 0 <= i < j < |created| ==> FirstIndex(keys, created[i]) < FirstIndex(keys, created[j])
    {
      var z := keys[n];
      assert keys[..n + 1] == keys[..n] + [z];
      if z !in after {
        assert z !in keys[..n];
        FirstIndexAt(keys, n);
        created := created + [z];
        after := after + {z};
      }
      n := n + 1;
    }
    assert keys[..n] == keys;
  }
}
